=== FILE: README.md ===
# Authentication token client, modelled in Dafny

`auth.py` (Bridge_Defense) is a UDP client for an authentication server. The
server issues tokens. The client asks for an individual token for an
(id, nonce) pair (type 1) and validates one (type 3). It asks for a group
token over a list of individual SASes (type 5) and validates one (type 7).
Every message is a fixed binary layout packed with Python's `struct` in
network byte order:

- 12-byte id fields, padded with spaces by `ljust(12)` and then cut to 12
  bytes by `12s`;
- 32-bit signed nonces;
- 64-byte token fields, NUL-padded or cut by `64s`;
- an 80-byte chunk per group member;
- a signed status byte on validation replies.

The exchange sends the payload up to five times (`Transport.DefaultAttempts`,
the count every client operation uses), one send per timeout. It
stops on the first datagram, aborts on any other socket error, reports an
empty reply as "no response", and reports a 4-byte reply of type 256 as a
server error whose code is looked up in a five-entry table. The model's four
client operations take the attempt count as a parameter, and their contracts
hold for every count, five included. A token obtained
this way is printed as a SAS `id:nonce:token` or a GAS
`sas-1+...+sas-n+token`.

The model:

| file | module | contents |
|---|---|---|
| `wrappers.dfy` | `Wrappers` | `Option` and `Result` |
| `wire.dfy` | `Wire` | bytes, big-endian signed integers, ASCII encode and decode, NUL-padded fixed-width fields, `str.ljust`, `str.strip` |
| `messages.dfy` | `Messages` | the eight message records and the type codes |
| `codec.dfy` | `Codec` | the 80-byte member chunk and the individual request, validation, response and status layouts |
| `group.dfy` | `GroupCodec` | the group layouts: header, `80*n`-byte region, token, status |
| `transport.dfy` | `Transport` | `sendPayload` and `getServerErrorMsg` |
| `client.dfy` | `Client` | the four `send...` operations, end to end |
| `display.dfy` | `Display` | `getStringSAS`, `getStringGAS`, Python `str(int)`, `join` and `split` |

The socket is replaced by a *script*: one `Attempt` per round, each a
timeout, a fault or a datagram. A script that runs out keeps timing out.
Operations return a `Result` where the program would raise an exception or
call `exit`. They also return the list of payloads sent.

The model follows the code as written. In particular:

- Only the id is stripped on decode; the token keeps any padding. A 64-byte
  token field with trailing NULs decodes to a token ending in NULs.
- An id longer than 12 characters is cut to 12, not rejected. The same holds
  for a token longer than 64.
- A group request whose list length differs from `n` is not rejected. The
  member region is NUL-padded or cut to `80*n` bytes (see
  `GroupRequestDropsExtraMembers` and `GroupRequestPadsMissingMembers`).
- The type and `n` fields of a reply are returned as received and never
  checked.
- On POSIX systems `recv(4096)` keeps only the first 4096 bytes of a
  datagram. A group reply for more than 50 members is therefore cut short
  there and fails to unpack (`LargeGroupResponseCut`).

## Model

| member | source | states |
|---|---|---|
| Wire.UnsignedOfBigEndian | auth.py:235-240 | reading back k big-endian bytes gives the number that was written |
| Wire.BigEndianOfUnsigned | auth.py:246 | writing back the value read from k bytes gives the same k bytes |
| Wire.SignedRoundTrip | auth.py:246 | a signed value in range survives two's-complement packing and unpacking |
| Wire.SignedBytesOfValue | auth.py:246 | any k bytes are the packing of the signed value they denote |
| Wire.Int16Bytes | auth.py:235-240 | `h` packs an in-range value into 2 bytes that read back as that value |
| Wire.Int32Bytes | auth.py:235-240 | `i` packs an in-range value into 4 bytes that read back as that value |
| Wire.Int8Bytes | auth.py:274 | `b` packs an in-range value into 1 byte that reads back as that value |
| Wire.Int16BytesOfValue | auth.py:217 | any 2 bytes are the `h` packing of their value |
| Wire.Int8Value | auth.py:274 | `b` reads one byte as a signed value: the byte itself below 0x80, the byte minus 256 from 0x80 up |
| Wire.Int16Value | auth.py:217 | `h` reads two bytes high byte first as a signed value, negative exactly when the top bit is set |
| Wire.Int32Value | auth.py:246 | `i` reads four bytes most significant first as a signed value, negative exactly when the top bit is set |
| Wire.Int8BytesOfValue | auth.py:274 | any byte is the `b` packing of its value |
| Wire.Int32BytesOfValue | auth.py:246 | any 4 bytes are the `i` packing of their value |
| Wire.EncodeAscii | auth.py:238 | ASCII encoding succeeds exactly for text of code points below 128; byte i is the code point of character i |
| Wire.DecodeAscii | auth.py:249 | ASCII decoding succeeds exactly for bytes below 128; character i has the code point byte i |
| Wire.AsciiRoundTrip | auth.py:238 | decoding the ASCII encoding of a text gives the text back |
| Wire.AsciiBytesRoundTrip | auth.py:249 | encoding the ASCII decoding of bytes gives the bytes back |
| Wire.FixedWidth | auth.py:236 | an `Ns` field is N bytes: the data's first N bytes, then NULs |
| Wire.AsciiField | auth.py:238 | a field fails exactly on non-ASCII text; otherwise it is w bytes decoding to the text NUL-padded or cut to w |
| Wire.LeftJustify | auth.py:238 | `ljust(w)` appends spaces up to width w, never shortens, and keeps the text ASCII exactly when it was |
| Wire.Strip | auth.py:249 | the result has no edge whitespace and is the text minus an all-whitespace prefix and suffix |
| Wire.StripUnique | auth.py:249 | whitespace around a trimmed text strips to exactly that text |
| Wire.StripTrimmed | auth.py:249 | stripping a trimmed text changes nothing |
| Wire.StripAscii | auth.py:249 | stripping keeps text ASCII and never lengthens it |
| Codec.PackMember | auth.py:293-298 | a chunk packs exactly when id and token are ASCII and the nonce fits in 32 bits; a non-ASCII text is reported first (`NonAsciiText`), an out-of-range nonce on ASCII texts second (`IntegerOutOfRange`); a chunk is 80 bytes |
| Codec.PackedFields | auth.py:293-298 | a packed chunk reads back field by field as the id left-justified with spaces and fitted to 12 bytes, the nonce, and the token fitted to 64 bytes |
| Codec.UnpackMember | auth.py:312-316 | a chunk unpacks exactly when its id and token bytes are ASCII; what it gives is canonical, with the nonce as the signed 32-bit value |
| Codec.ChunkRepacks | auth.py:312-316 | every chunk that unpacks is the packing of the member its fields spell out, and unpacks to that member with the id stripped and the token as received |
| Codec.MemberRoundTrip | auth.py:293-316 | unpacking a packed member gives the member with its id padded, cut and stripped and its token NUL-padded or cut |
| Codec.NormalizedCanonical | auth.py:293-316 | a member with an ASCII id of at most 12 characters, no edge whitespace, and an ASCII 64-character token is unchanged by this |
| Codec.CanonicalMemberRoundTrip | auth.py:293-316 | such a member packs and unpacks to itself |
| Codec.NormalizedIdempotent | auth.py:312-316 | what comes out of a round trip is canonical and survives another round trip unchanged |
| Codec.EncodeIndividualRequest | auth.py:235-240 | encoding succeeds exactly for an ASCII id and an int32 nonce; a non-ASCII id fails with `NonAsciiText` before the nonce is looked at, an out-of-range nonce fails with `IntegerOutOfRange`; the payload is 18 bytes reading back as type 1, the justified id and the nonce |
| Codec.AliceRequestBytes | auth.py:235-240 | the request for id "alice", nonce 42 is `00 01`, "alice" and seven spaces, `00 00 00 2a` |
| Codec.EncodeIndividualValidation | auth.py:262-268 | encoding fails exactly when the member chunk does, with its error; the payload is 82 bytes: type 3, then exactly the member's packed chunk, which unpacks to the normalized member |
| Codec.DecodeIndividualResponse | auth.py:246-250 | only an 82-byte reply decodes, and only with ASCII id and token; any other length fails with `WrongLength(82, len)`, an 82-byte reply that fails with `NonAsciiText`; the type is whatever was received |
| Codec.DecodeIndividualStatus | auth.py:274-278 | only an 83-byte reply decodes; an 83-byte reply that fails does so with `NonAsciiText`; the last byte is the signed status |
| Codec.IndividualResponseRoundTrip | auth.py:246-250 | a response laid out from any type and member decodes to that type and the normalized member |
| Codec.IndividualStatusRoundTrip | auth.py:274-278 | a status laid out from type, member and status decodes to them |
| Codec.IndividualValidationEcho | auth.py:262-278 | the validation payload of a canonical member, read as a response, gives type 3 and the same fields |
| GroupCodec.PackMembers | auth.py:290-298 | the region packs exactly when every member does; it has one 80-byte chunk per member, in list order |
| GroupCodec.UnpackMembers | auth.py:308-316 | n chunks unpack exactly when each does; member i comes from bytes 80i to 80i+80 |
| GroupCodec.MembersRoundTrip | auth.py:290-316 | unpacking a packed list gives the normalized members, in order |
| GroupCodec.EncodeGroupRequest | auth.py:290-300 | encoding succeeds exactly when all members pack and n is in 0..32767; the first member's packing error comes first, then `IntegerOutOfRange` for n; the payload is `4+80n` bytes: type 5, n, chunk i for `i < min(n, len)`, NULs after the packed members |
| GroupCodec.EncodeGroupValidation | auth.py:331-347 | encoding succeeds exactly when all members pack, the token is ASCII and n is in 0..32767; errors come in that order: the members' packing error, `NonAsciiText` for the token, `IntegerOutOfRange` for n; the payload is `4+80n+64` bytes: type 7, n, chunk i for `i < min(n, len)`, NULs after the packed members up to `4+80n`, then the NUL-padded token |
| GroupCodec.DecodeGroupResponse | auth.py:306-318 | only a reply of exactly `4+80n+64` bytes decodes, and a reply of that length that fails does so with `NonAsciiText`; member i from chunk i, n members; type and count as received |
| GroupCodec.DecodeGroupStatus | auth.py:353-365 | only a reply of exactly `4+80n+65` bytes decodes, and a reply of that length that fails does so with `NonAsciiText`; the last byte is the signed status |
| GroupCodec.GroupResponseRoundTrip | auth.py:306-318 | a response laid out from type, count, members and token decodes to them, members normalized and in order |
| GroupCodec.GroupStatusRoundTrip | auth.py:353-365 | the same for a status and its status byte |
| GroupCodec.GroupValidationEcho | auth.py:341-347 | a validation payload with `n == len(group)`, read as a response, gives type 7, n, the normalized members in order, and the padded token |
| GroupCodec.CanonicalGroupValidationEcho | auth.py:331-347 | for canonical members and a 64-character ASCII token that echo is exact |
| GroupCodec.GroupRequestDropsExtraMembers | auth.py:300 | members beyond n are cut: the payload equals the one for the first n members |
| GroupCodec.GroupRequestPadsMissingMembers | auth.py:300 | a slot beyond the list is all NULs and unpacks to a NUL id, nonce 0 and a NUL token |
| GroupCodec.ZeroChunk | auth.py:312-316 | an all-NUL chunk unpacks to 12 NULs, nonce 0 and 64 NULs (NUL is not stripped) |
| GroupCodec.GroupLayoutsAreNotErrorSized | auth.py:216 | no group response or status layout is 4 bytes long, so none can be taken for a server error |
| Transport.ServerErrorMessage | auth.py:139-151 | the message is the unknown-code text exactly when the code is outside 1..5; otherwise it is a table entry |
| Transport.ServerErrorMessageInjective | auth.py:140-146 | distinct known codes have distinct messages |
| Transport.ServerErrorMessages | auth.py:139-151 | codes 1..5 give the five names in order; 0 and 6 give the unknown-code text |
| Transport.ServerErrorCode | auth.py:216-219 | a reply is a server error exactly when it is 4 bytes with leading int16 256; it is then the packing of 256 and the code |
| Transport.Classify | auth.py:211-225 | an empty reply is "no response", a server error carries its code and message, any other reply passes unchanged |
| Transport.ServerErrorReported | auth.py:216-223 | the 4-byte error reply of any int16 code is reported with that code and its message |
| Transport.OtherLengthsPassThrough | auth.py:216 | a non-empty reply of any length other than 4 is passed on unchanged |
| Transport.InvalidParameterReply | auth.py:216-223 | the reply `01 00 00 03` is the server error 3, INVALID_PARAMETER |
| Transport.Receive | auth.py:203 | `recv(bufSize)` gives the datagram's first bufSize bytes |
| Transport.RetryFrom | auth.py:200-209 | the loop ends within its budget; a fault or datagram ends it in the round that produced it; every earlier round timed out |
| Transport.Exchange | auth.py:196-225 | the exchange is a channel fault exactly when the loop ended on a fault; an exhausted loop is "no response"; a received datagram is cut to the buffer and classified, so only a non-empty one that is not a server error comes back |
| Transport.SendPayload | auth.py:189-225 | the loop computes the exchange result; it sends the same payload once per round, at most `attempts` times; every round but the last timed out |
| Transport.NoAttempts | auth.py:200 | with zero attempts nothing is sent and the result is "no response" |
| Transport.AllTimeouts | auth.py:200-206 | if every round in the budget times out, every attempt is spent |
| Transport.FirstAnswerDecides | auth.py:200-209 | the first round in the budget that does not time out decides the loop: a fault aborts, a datagram is received |
| Transport.SilentServer | auth.py:200-213 | a server that never answers gives "no response" after `attempts` sends |
| Transport.MoreAttemptsAfterAnswer | auth.py:200-204 | once the loop has ended on a fault or datagram, a larger budget gives the same outcome |
| Client.SendIndividualTokenRequest | auth.py:228-250 | an encoding failure sends nothing; otherwise the payload is sent as the exchange dictates; an exchange error is reported before decoding |
| Client.SendIndividualTokenValidation | auth.py:253-278 | the same for the validation and its 83-byte status |
| Client.SendGroupTokenRequest | auth.py:281-318 | the same for the group request; the reply is decoded with the request's n, known to be valid |
| Client.SendGroupTokenValidation | auth.py:321-365 | the same for the group validation |
| Client.ReplyDelivered | auth.py:200-225 | a datagram of a length other than 0 or 4 that fits the buffer, arriving in the deciding round, is exactly what gets decoded |
| Client.IndividualRequestAnswered | auth.py:228-250 | if the server answers with a well-formed response, the request returns its type, normalized id, nonce and token |
| Client.IndividualValidationAnswered | auth.py:253-278 | if the server answers with a well-formed status, the validation returns it |
| Client.GroupRequestAnswered | auth.py:281-318 | if the server answers with a well-formed group response that fits the buffer, the request returns it, members in order |
| Client.GroupValidationAnswered | auth.py:321-365 | the same for the group status |
| Client.LargeGroupResponseCut | auth.py:203 | a group response over 4096 bytes, i.e. more than 50 members, is cut by the receive and fails to unpack |
| Client.ServerErrorEndsOperation | auth.py:216-223 | a server error in the deciding round ends any operation with that error; nothing is decoded |
| Display.DigitsRoundTrip | auth.py:21 | the decimal digits of a natural number read back as that number |
| Display.DecimalString | auth.py:21 | `str(int)` is a leading minus for negatives, then digits only, with no leading zero except in "0" itself |
| Display.ParseDecimal | auth.py:21 | accepts exactly the numerals `str(int)` writes: digits without a leading zero (or "0"), optionally after a minus sign when the digits are not "0" |
| Display.DecimalRoundTrip | auth.py:21 | the numeral of any integer parses back to it |
| Display.NumeralRoundTrip | auth.py:21 | writing out the value of a numeral without leading zeros gives the numeral back |
| Display.ParsedNumeral | auth.py:21 | every string that parses is the numeral of the number it reads, so parsing and `str(int)` are inverse both ways |
| Display.Join | auth.py:58 | `join` of no parts is "", of one part is that part, and of more starts with the first part and the separator |
| Display.SplitJoin | auth.py:58 | parts free of the separator are recovered by splitting their `join` |
| Display.JoinSplit | auth.py:58 | joining the parts of a split gives the string back |
| Display.JoinSnoc | auth.py:58 | joining one more part appends the separator and the part |
| Display.Sas | auth.py:20-21 | an SAS starts with the id and a ':', and ends with a ':' and the token |
| Display.SasString | auth.py:20-21 | when neither id nor token holds a ':', the SAS splits back into the response's id, nonce numeral and token, and the nonce parses back |
| Display.SasSplits | auth.py:20-21 | a SAS whose id and token hold no ':' splits into id, nonce numeral and token, and the nonce parses back |
| Display.GasString | auth.py:57-58 | a GAS ends in '+' and the token; an empty group gives "+token" |
| Display.GasSplits | auth.py:57-58 | a '+'-free GAS splits into the members' SASes then the token; for an empty group into "" and the token |

## Left out

- initConnection (auth.py:155-186): address resolution and socket creation are I/O. The model starts from a connected socket, which the script stands for.
- The timeout value (`timeoutSec`, `settimeout`): only whether a round timed out matters, and that is in the script.
- Printing and `exit` codes: the exits 2, 3 and 4 are `ChannelFault`, `NoResponse` and `ServerError`. The error message text printed with them is not modelled beyond `ServerErrorMessage`.
- The command line (`initParser`, `validateArgs`, the main block): argument parsing and Python's `int()` are not modelled. `ParseDecimal` is not `int()`: it accepts only the numerals `str(int)` writes (no leading zeros, no "-0", no sign '+', no whitespace), as the inverse of `DecimalString`.
- Constructors of the message classes: they are the `Messages` datatypes.
- Transport.SendPayload: `attempts` is a natural number. With a negative count the program's `while attempts:` loop would keep retrying while the server is silent, and that case is not modelled.
- Transport.SendPayload: a fault in `send` and a fault in `recv` are one kind of `Attempt`. Either way the payload is counted as sent.
- A datagram's bytes beyond the receive buffer are discarded by the operating system; the model only keeps the first `bufSize` bytes (`Receive`).
- Transport.Receive: follows POSIX `recv` on a UDP socket, which truncates an over-long datagram. On Windows `recv` instead fails with WSAEMSGSIZE, which the program would report as a send/receive failure (exit 2); that platform is not modelled.

=== FILE: client.dfy ===
/** The four client operations: encode the message, run the exchange, decode
    the reply. An encoding failure is raised before anything is sent. */
module Client {
  import opened Wrappers
  import opened Wire
  import opened Messages
  import opened Codec
  import opened GroupCodec
  import opened Transport

  /** Where an operation stopped. */
  datatype Failure =
    | EncodingFailed(cause: CodecError)      // struct.pack or str.encode raised
    | ExchangeFailed(reason: ExchangeError)  // sendPayload gave up or saw a server error
    | DecodingFailed(cause: CodecError)      // struct.unpack or bytes.decode raised

  /** `sent` is what the retry loop sent for `payload`: at most `attempts`
      copies of it, exactly as many as the loop ran rounds. */
  predicate Delivered(sent: seq<seq<byte>>, payload: seq<byte>, script: seq<Attempt>, attempts: nat) {
    && |sent| == Loop(script, attempts).sends
    && |sent| <= attempts
    && forall k :: 0 <= k < |sent| ==> sent[k] == payload
  }

  function DecodeFailure<T>(r: Result<T, CodecError>): (f: Result<T, Failure>)
    ensures f.Ok? <==> r.Ok?
    ensures f.Ok? ==> f.value == r.value
    ensures f.Err? ==> f.error == DecodingFailed(r.error)
  {
    match r
    case Ok(v) => Ok(v)
    case Err(e) => Err(DecodingFailed(e))
  }

  /** What a request yields once its payload is encoded: the exchange's error,
      or the decoded reply. */
  function Answer<T>(x: Result<seq<byte>, ExchangeError>, decoded: Result<T, CodecError>): (f: Result<T, Failure>)
    ensures x.Err? ==> f == Err(ExchangeFailed(x.error))
    ensures x.Ok? ==> f == DecodeFailure(decoded)
  {
    if x.Err? then Err(ExchangeFailed(x.error)) else DecodeFailure(decoded)
  }

  /** The reply, if the exchange produced one, otherwise the empty datagram
      (never decoded: `Answer` reports the exchange error first). */
  function ReplyOf(x: Result<seq<byte>, ExchangeError>): seq<byte> {
    if x.Ok? then x.value else []
  }

  method SendIndividualTokenRequest(req: IndividualTokenRequest, script: seq<Attempt>, attempts: nat)
    returns (r: Result<IndividualTokenResponse, Failure>, sent: seq<seq<byte>>)
    ensures EncodeIndividualRequest(req).Err? ==> sent == [] && r == Err(EncodingFailed(EncodeIndividualRequest(req).error))
    ensures EncodeIndividualRequest(req).Ok? ==>
      (&& Delivered(sent, EncodeIndividualRequest(req).value, script, attempts)
       && r == Answer(Exchange(script, attempts, DefaultBufSize), DecodeIndividualResponse(ReplyOf(Exchange(script, attempts, DefaultBufSize)))))
  {
    var payload := EncodeIndividualRequest(req);
    if payload.Err? {
      return Err(EncodingFailed(payload.error)), [];
    }
    var x;
    x, sent := SendPayload(payload.value, script, attempts, DefaultBufSize);
    r := Answer(x, DecodeIndividualResponse(ReplyOf(x)));
  }

  method SendIndividualTokenValidation(v: IndividualTokenValidation, script: seq<Attempt>, attempts: nat)
    returns (r: Result<IndividualTokenStatus, Failure>, sent: seq<seq<byte>>)
    ensures EncodeIndividualValidation(v).Err? ==> sent == [] && r == Err(EncodingFailed(EncodeIndividualValidation(v).error))
    ensures EncodeIndividualValidation(v).Ok? ==>
      (&& Delivered(sent, EncodeIndividualValidation(v).value, script, attempts)
       && r == Answer(Exchange(script, attempts, DefaultBufSize), DecodeIndividualStatus(ReplyOf(Exchange(script, attempts, DefaultBufSize)))))
  {
    var payload := EncodeIndividualValidation(v);
    if payload.Err? {
      return Err(EncodingFailed(payload.error)), [];
    }
    var x;
    x, sent := SendPayload(payload.value, script, attempts, DefaultBufSize);
    r := Answer(x, DecodeIndividualStatus(ReplyOf(x)));
  }

  /** The reply is unpacked with the declared size n, which encoding has
      already checked to be a valid 16-bit count. */
  method SendGroupTokenRequest(req: GroupTokenRequest, script: seq<Attempt>, attempts: nat)
    returns (r: Result<GroupTokenResponse, Failure>, sent: seq<seq<byte>>)
    ensures EncodeGroupRequest(req).Err? ==> sent == [] && r == Err(EncodingFailed(EncodeGroupRequest(req).error))
    ensures EncodeGroupRequest(req).Ok? ==>
      (&& IsGroupSize(req.n)
       && Delivered(sent, EncodeGroupRequest(req).value, script, attempts)
       && r == Answer(Exchange(script, attempts, DefaultBufSize), DecodeGroupResponse(ReplyOf(Exchange(script, attempts, DefaultBufSize)), req.n)))
  {
    var payload := EncodeGroupRequest(req);
    if payload.Err? {
      return Err(EncodingFailed(payload.error)), [];
    }
    var x;
    x, sent := SendPayload(payload.value, script, attempts, DefaultBufSize);
    r := Answer(x, DecodeGroupResponse(ReplyOf(x), req.n));
  }

  method SendGroupTokenValidation(v: GroupTokenValidation, script: seq<Attempt>, attempts: nat)
    returns (r: Result<GroupTokenStatus, Failure>, sent: seq<seq<byte>>)
    ensures EncodeGroupValidation(v).Err? ==> sent == [] && r == Err(EncodingFailed(EncodeGroupValidation(v).error))
    ensures EncodeGroupValidation(v).Ok? ==>
      (&& IsGroupSize(v.n)
       && Delivered(sent, EncodeGroupValidation(v).value, script, attempts)
       && r == Answer(Exchange(script, attempts, DefaultBufSize), DecodeGroupStatus(ReplyOf(Exchange(script, attempts, DefaultBufSize)), v.n)))
  {
    var payload := EncodeGroupValidation(v);
    if payload.Err? {
      return Err(EncodingFailed(payload.error)), [];
    }
    var x;
    x, sent := SendPayload(payload.value, script, attempts, DefaultBufSize);
    r := Answer(x, DecodeGroupStatus(ReplyOf(x), v.n));
  }

  // ---------------------------------------------------------------------------
  // End to end: what the operations return for a given server behaviour
  // ---------------------------------------------------------------------------

  /** A reply that is neither empty nor 4 bytes long, arriving in the first
      round that does not time out, is what the exchange hands to the decoder. */
  lemma ReplyDelivered(script: seq<Attempt>, attempts: nat, k: nat, d: seq<byte>)
    requires k < attempts && forall i :: 0 <= i < k ==> AttemptAt(script, i) == Timeout
    requires AttemptAt(script, k) == Reply(d) && |d| != 0 && |d| != 4 && |d| <= DefaultBufSize
    ensures Exchange(script, attempts, DefaultBufSize) == Ok(d) && ReplyOf(Exchange(script, attempts, DefaultBufSize)) == d
  {
    FirstAnswerDecides(script, 0, attempts, k);
    OtherLengthsPassThrough(d);
  }

  /** The server answers round k (all earlier rounds timed out) with a well-formed
      individual response: the request returns it decoded. */
  lemma {:induction false} IndividualRequestAnswered(script: seq<Attempt>, attempts: nat, k: nat, typ: int, m: Member)
    requires k < attempts && forall i :: 0 <= i < k ==> AttemptAt(script, i) == Timeout
    requires InInt16(typ) && PackMember(m).Ok?
    requires AttemptAt(script, k) == Reply(Int16Bytes(typ) + PackMember(m).value)
    ensures Answer(Exchange(script, attempts, DefaultBufSize), DecodeIndividualResponse(ReplyOf(Exchange(script, attempts, DefaultBufSize))))
      == Ok(IndividualTokenResponse(typ, Normalized(m).id, m.nonce, Normalized(m).token))
  {
    ReplyDelivered(script, attempts, k, Int16Bytes(typ) + PackMember(m).value);
    IndividualResponseRoundTrip(typ, m);
  }

  /** The same for an individual validation answered with a status. */
  lemma {:induction false} IndividualValidationAnswered(script: seq<Attempt>, attempts: nat, k: nat, typ: int, m: Member, status: int)
    requires k < attempts && forall i :: 0 <= i < k ==> AttemptAt(script, i) == Timeout
    requires InInt16(typ) && InInt8(status) && PackMember(m).Ok?
    requires AttemptAt(script, k) == Reply(Int16Bytes(typ) + PackMember(m).value + Int8Bytes(status))
    ensures Answer(Exchange(script, attempts, DefaultBufSize), DecodeIndividualStatus(ReplyOf(Exchange(script, attempts, DefaultBufSize))))
      == Ok(IndividualTokenStatus(typ, Normalized(m).id, m.nonce, Normalized(m).token, status))
  {
    ReplyDelivered(script, attempts, k, Int16Bytes(typ) + PackMember(m).value + Int8Bytes(status));
    IndividualStatusRoundTrip(typ, m, status);
  }

  /** A group response for |group| members, decoded with n = |group|. */
  lemma {:induction false} GroupRequestAnswered(script: seq<Attempt>, attempts: nat, k: nat,
                             typ: int, count: int, group: seq<Member>, token: string)
    requires k < attempts && forall i :: 0 <= i < k ==> AttemptAt(script, i) == Timeout
    requires InInt16(typ) && InInt16(count) && PackMembers(group).Ok? && IsAsciiText(token)
    requires AttemptAt(script, k) == Reply(GroupLayout(typ, count, group, token))
    requires RegionEnd(|group|) + TokenSize <= DefaultBufSize
    ensures Answer(Exchange(script, attempts, DefaultBufSize), DecodeGroupResponse(ReplyOf(Exchange(script, attempts, DefaultBufSize)), |group|))
      == Ok(GroupTokenResponse(typ, count, NormalizedGroup(group), PadText(token, TokenSize)))
  {
    GroupLayoutsAreNotErrorSized(|group|);
    ReplyDelivered(script, attempts, k, GroupLayout(typ, count, group, token));
    GroupResponseRoundTrip(typ, count, group, token);
  }

  /** A group status for |group| members, decoded with n = |group|. */
  lemma {:induction false} GroupValidationAnswered(script: seq<Attempt>, attempts: nat, k: nat,
                                typ: int, count: int, group: seq<Member>, token: string, status: int)
    requires k < attempts && forall i :: 0 <= i < k ==> AttemptAt(script, i) == Timeout
    requires InInt16(typ) && InInt16(count) && PackMembers(group).Ok? && IsAsciiText(token) && InInt8(status)
    requires AttemptAt(script, k) == Reply(GroupLayout(typ, count, group, token) + Int8Bytes(status))
    requires RegionEnd(|group|) + TokenSize + 1 <= DefaultBufSize
    ensures Answer(Exchange(script, attempts, DefaultBufSize), DecodeGroupStatus(ReplyOf(Exchange(script, attempts, DefaultBufSize)), |group|))
      == Ok(GroupTokenStatus(typ, count, NormalizedGroup(group), PadText(token, TokenSize), status))
  {
    GroupLayoutsAreNotErrorSized(|group|);
    ReplyDelivered(script, attempts, k, GroupLayout(typ, count, group, token) + Int8Bytes(status));
    GroupStatusRoundTrip(typ, count, group, token, status);
  }

  /** recv keeps only the first 4096 bytes of a datagram, so a group response for
      more than 50 members never reaches its expected length: the group request
      fails to decode however well-formed the server's answer was. */
  lemma {:induction false} LargeGroupResponseCut(script: seq<Attempt>, attempts: nat, k: nat,
                                                 typ: int, count: int, group: seq<Member>, token: string)
    requires k < attempts && forall i :: 0 <= i < k ==> AttemptAt(script, i) == Timeout
    requires InInt16(typ) && InInt16(count) && PackMembers(group).Ok? && IsAsciiText(token)
    requires AttemptAt(script, k) == Reply(GroupLayout(typ, count, group, token))
    requires RegionEnd(|group|) + TokenSize > DefaultBufSize
    ensures Answer(Exchange(script, attempts, DefaultBufSize), DecodeGroupResponse(ReplyOf(Exchange(script, attempts, DefaultBufSize)), |group|))
      == Err(DecodingFailed(WrongLength(RegionEnd(|group|) + TokenSize, DefaultBufSize)))
  {
    var got := Receive(GroupLayout(typ, count, group, token), DefaultBufSize);
    FirstAnswerDecides(script, 0, attempts, k);
    OtherLengthsPassThrough(got);
    assert Exchange(script, attempts, DefaultBufSize) == Ok(got);
  }

  /** A server error in the deciding round ends any operation with that error;
      the reply is never decoded. */
  lemma ServerErrorEndsOperation<T>(script: seq<Attempt>, attempts: nat, k: nat, code: int, decoded: Result<T, CodecError>)
    requires k < attempts && forall i :: 0 <= i < k ==> AttemptAt(script, i) == Timeout
    requires InInt16(code)
    requires AttemptAt(script, k) == Reply(Int16Bytes(ServerErrorType) + Int16Bytes(code))
    ensures Answer(Exchange(script, attempts, DefaultBufSize), decoded)
      == Err(ExchangeFailed(ServerError(code, ServerErrorMessage(code))))
  {
    FirstAnswerDecides(script, 0, attempts, k);
    ServerErrorReported(code);
  }
}

=== FILE: codec.dfy ===
/** The `!12si64s` member layout and the individual-token layouts:
      request     `!h12si`       18 bytes
      validation  `!h12si64s`    82 bytes (also the response layout)
      status      `!h12si64sb`   83 bytes
    An id is space-padded with `ljust(12)` before it is packed (and cut to 12
    bytes by the field); a token is packed as it is, so a short token is
    NUL-padded and a long one cut to 64 bytes. On unpacking, the id is stripped
    of surrounding whitespace and the token is kept as received. */
module Codec {
  import opened Wrappers
  import opened Wire
  import opened Messages

  const IdSize := 12
  const TokenSize := 64
  /** 12-byte id, 4-byte nonce, 64-byte token. */
  const MemberSize := 80

  const IndividualRequestSize := 18
  const IndividualResponseSize := 82
  const IndividualStatusSize := 83

  // ---------------------------------------------------------------------------
  // One member: `!12si64s`
  // ---------------------------------------------------------------------------

  /** An 80-byte chunk whose fields read back as m's: the id left-justified
      with spaces and then cut to 12 bytes, the nonce as a signed
      32-bit value, the token NUL-padded or cut to 64 bytes. */
  predicate HoldsMember(chunk: seq<byte>, m: Member) {
    && |chunk| == MemberSize
    && DecodeAscii(chunk[..IdSize]) == Some(PadText(LeftJustify(m.id, IdSize), IdSize))
    && Int32Value(chunk[IdSize..IdSize + 4]) == m.nonce
    && DecodeAscii(chunk[IdSize + 4..]) == Some(PadText(m.token, TokenSize))
  }

  /** The 80-byte chunk of one (id, nonce, token) triple. Encoding errors come
      in the order Python meets them: the id's text, the token's text, then the
      nonce's range. */
  function PackMember(m: Member): (r: Result<seq<byte>, CodecError>)
    ensures r.Ok? <==> IsAsciiText(m.id) && IsAsciiText(m.token) && InInt32(m.nonce)
    ensures !IsAsciiText(m.id) || !IsAsciiText(m.token) ==> r == Err(NonAsciiText)
    ensures IsAsciiText(m.id) && IsAsciiText(m.token) && !InInt32(m.nonce) ==> r == Err(IntegerOutOfRange)
    ensures r.Ok? ==> |r.value| == MemberSize
  {
    var idField :- AsciiField(LeftJustify(m.id, IdSize), IdSize);
    var tokenField :- AsciiField(m.token, TokenSize);
    if InInt32(m.nonce) then Ok(idField + Int32Bytes(m.nonce) + tokenField)
    else Err(IntegerOutOfRange)
  }

  /** A packed chunk holds its member field by field: the id left-justified and
      fitted to 12 bytes, the nonce, the token fitted to 64 bytes. */
  lemma PackedFields(m: Member)
    requires PackMember(m).Ok?
    ensures HoldsMember(PackMember(m).value, m)
  {
    var idField := AsciiField(LeftJustify(m.id, IdSize), IdSize).value;
    var tokenField := AsciiField(m.token, TokenSize).value;
    var chunk := PackMember(m).value;
    assert chunk == idField + Int32Bytes(m.nonce) + tokenField;
    assert chunk[..IdSize] == idField;
    assert chunk[IdSize..IdSize + 4] == Int32Bytes(m.nonce);
    assert chunk[IdSize + 4..] == tokenField;
  }

  /** A member that reads back as itself: an ASCII id of at most 12 characters
      with no surrounding whitespace, a 32-bit nonce, and an ASCII token of
      exactly 64 characters. */
  predicate IsCanonical(m: Member) {
    && IsAsciiText(m.id) && |m.id| <= IdSize && Trimmed(m.id)
    && InInt32(m.nonce)
    && IsAsciiText(m.token) && |m.token| == TokenSize
  }

  /** The 80-byte chunk unpacked: the id stripped, the nonce as a signed
      32-bit value, the token as received. Fails when either text field holds
      a byte outside ASCII. Whatever it decodes is canonical. */
  function UnpackMember(chunk: seq<byte>): (r: Result<Member, CodecError>)
    requires |chunk| == MemberSize
    ensures r.Ok? <==> IsAsciiBytes(chunk[..IdSize]) && IsAsciiBytes(chunk[IdSize + 4..])
    ensures r.Err? ==> r.error == NonAsciiText
    ensures r.Ok? ==> IsCanonical(r.value) && r.value.nonce == Int32Value(chunk[IdSize..IdSize + 4])
  {
    var id :- DecodeAscii(chunk[..IdSize]).ToResult(NonAsciiText);
    var token :- DecodeAscii(chunk[IdSize + 4..]).ToResult(NonAsciiText);
    StripAscii(id);
    Ok(Member(Strip(id), Int32Value(chunk[IdSize..IdSize + 4]), token))
  }

  /** What a member reads back as after packing: its id padded or cut to 12
      characters and then stripped, its nonce, and its token NUL-padded or cut
      to 64 characters. */
  function Normalized(m: Member): Member {
    Member(Strip(PadText(LeftJustify(m.id, IdSize), IdSize)), m.nonce, PadText(m.token, TokenSize))
  }

  /** Unpacking a packed member gives back its normalized form. */
  lemma MemberRoundTrip(m: Member)
    requires PackMember(m).Ok?
    ensures UnpackMember(PackMember(m).value) == Ok(Normalized(m))
  {
    var idField := AsciiField(LeftJustify(m.id, IdSize), IdSize).value;
    var tokenField := AsciiField(m.token, TokenSize).value;
    var chunk := PackMember(m).value;
    assert chunk == idField + Int32Bytes(m.nonce) + tokenField;
    assert chunk[..IdSize] == idField;
    assert chunk[IdSize..IdSize + 4] == Int32Bytes(m.nonce);
    assert chunk[IdSize + 4..] == tokenField;
  }

  /** A canonical member is its own normalized form. */
  lemma NormalizedCanonical(m: Member)
    requires IsCanonical(m)
    ensures Normalized(m) == m
  {
    JustifiedIdStrips(m.id);
    assert PadText(m.token, TokenSize) == m.token;
  }

  /** An id of at most 12 characters without edge whitespace survives `ljust`,
      the 12-byte field and `strip`. */
  lemma JustifiedIdStrips(id: string)
    requires |id| <= IdSize && Trimmed(id)
    ensures Strip(PadText(LeftJustify(id, IdSize), IdSize)) == id
  {
    var padded := LeftJustify(id, IdSize);
    var spaces := Spaces(|padded| - |id|);
    assert PadText(padded, IdSize) == padded;
    StripUnique("", id, spaces);
    assert "" + id + spaces == padded;
  }

  /** Packing a canonical member and unpacking the chunk gives back the same triple. */
  lemma CanonicalMemberRoundTrip(m: Member)
    requires IsCanonical(m)
    ensures PackMember(m).Ok? && UnpackMember(PackMember(m).value) == Ok(m)
  {
    MemberRoundTrip(m);
    NormalizedCanonical(m);
  }

  /** The member a chunk's fields spell out before any stripping: the id and
      token bytes as text, the nonce as the signed 32-bit value. */
  function ChunkFields(chunk: seq<byte>): Member
    requires |chunk| == MemberSize
    requires IsAsciiBytes(chunk[..IdSize]) && IsAsciiBytes(chunk[IdSize + 4..])
  {
    Member(DecodeAscii(chunk[..IdSize]).value, Int32Value(chunk[IdSize..IdSize + 4]),
      DecodeAscii(chunk[IdSize + 4..]).value)
  }

  /** Every chunk UnpackMember accepts is the packing of the member its fields
      spell out, and unpacks to that member's normalized form: the id stripped,
      the nonce and the token as they are. */
  lemma ChunkRepacks(chunk: seq<byte>)
    requires |chunk| == MemberSize
    requires IsAsciiBytes(chunk[..IdSize]) && IsAsciiBytes(chunk[IdSize + 4..])
    ensures PackMember(ChunkFields(chunk)) == Ok(chunk)
    ensures UnpackMember(chunk) == Ok(Normalized(ChunkFields(chunk)))
  {
    var m := ChunkFields(chunk);
    FieldOfAsciiBytes(chunk[..IdSize], IdSize);
    FieldOfAsciiBytes(chunk[IdSize + 4..], TokenSize);
    Int32BytesOfValue(chunk[IdSize..IdSize + 4]);
    assert LeftJustify(m.id, IdSize) == m.id by {
      assert m.id + Spaces(0) == m.id;
    }
    assert chunk == chunk[..IdSize] + chunk[IdSize..IdSize + 4] + chunk[IdSize + 4..];
    MemberRoundTrip(m);
  }

  /** Normalizing is idempotent: a member that went over the wire once goes over again unchanged. */
  lemma NormalizedIdempotent(m: Member)
    requires PackMember(m).Ok?
    ensures IsCanonical(Normalized(m)) && Normalized(Normalized(m)) == Normalized(m)
  {
    MemberRoundTrip(m);
    NormalizedCanonical(Normalized(m));
  }

  // ---------------------------------------------------------------------------
  // Individual token request: `!h12si`, 18 bytes
  // ---------------------------------------------------------------------------

  /** The itr payload: type 1, the id space-padded (or cut) to 12 bytes, the nonce.
      Read back field by field it gives type 1, the 12-character id field and the nonce. */
  function EncodeIndividualRequest(req: IndividualTokenRequest): (r: Result<seq<byte>, CodecError>)
    ensures r.Ok? <==> IsAsciiText(req.id) && InInt32(req.nonce)
    ensures !IsAsciiText(req.id) ==> r == Err(NonAsciiText)
    ensures IsAsciiText(req.id) && !InInt32(req.nonce) ==> r == Err(IntegerOutOfRange)
    ensures r.Ok? ==> |r.value| == IndividualRequestSize
    ensures r.Ok? ==> Int16Value(r.value[..2]) == IndividualRequestType
    ensures r.Ok? ==> DecodeAscii(r.value[2..2 + IdSize]) == Some(PadText(LeftJustify(req.id, IdSize), IdSize))
    ensures r.Ok? ==> Int32Value(r.value[2 + IdSize..]) == req.nonce
  {
    var idField :- AsciiField(LeftJustify(req.id, IdSize), IdSize);
    if InInt32(req.nonce) then
      var payload := Int16Bytes(IndividualRequestType) + idField + Int32Bytes(req.nonce);
      assert payload[..2] == Int16Bytes(IndividualRequestType);
      assert payload[2..2 + IdSize] == idField;
      assert payload[2 + IdSize..] == Int32Bytes(req.nonce);
      Ok(payload)
    else
      Err(IntegerOutOfRange)
  }

  // ---------------------------------------------------------------------------
  // Individual token validation: `!h12si64s`, 82 bytes
  // ---------------------------------------------------------------------------

  function ValidationMember(v: IndividualTokenValidation): Member {
    Member(v.id, v.nonce, v.token)
  }

  /** The itv payload: type 3 followed by the member chunk of (id, nonce, token). */
  function EncodeIndividualValidation(v: IndividualTokenValidation): (r: Result<seq<byte>, CodecError>)
    ensures r.Ok? <==> PackMember(ValidationMember(v)).Ok?
    ensures r.Err? ==> r.error == PackMember(ValidationMember(v)).error
    ensures r.Ok? ==> |r.value| == IndividualResponseSize
    ensures r.Ok? ==> Int16Value(r.value[..2]) == IndividualValidationType
    ensures r.Ok? ==> r.value[2..] == PackMember(ValidationMember(v)).value
    ensures r.Ok? ==> UnpackMember(r.value[2..]) == Ok(Normalized(ValidationMember(v)))
  {
    var chunk :- PackMember(ValidationMember(v));
    var payload := Int16Bytes(IndividualValidationType) + chunk;
    assert payload[..2] == Int16Bytes(IndividualValidationType);
    assert payload[2..] == chunk;
    MemberRoundTrip(ValidationMember(v));
    Ok(payload)
  }

  // ---------------------------------------------------------------------------
  // Individual token response and status
  // ---------------------------------------------------------------------------

  /** `struct.unpack("!h12si64s", res)`: exactly 82 bytes, type as received. */
  function DecodeIndividualResponse(res: seq<byte>): (r: Result<IndividualTokenResponse, CodecError>)
    ensures |res| != IndividualResponseSize ==> r == Err(WrongLength(IndividualResponseSize, |res|))
    ensures |res| == IndividualResponseSize && r.Err? ==> r.error == NonAsciiText
    ensures r.Ok? <==> |res| == IndividualResponseSize && UnpackMember(res[2..]).Ok?
    ensures r.Ok? ==> (r.value.typ == Int16Value(res[..2])
      && UnpackMember(res[2..]) == Ok(Member(r.value.id, r.value.nonce, r.value.token)))
  {
    if |res| != IndividualResponseSize then Err(WrongLength(IndividualResponseSize, |res|))
    else
      var m :- UnpackMember(res[2..]);
      Ok(IndividualTokenResponse(Int16Value(res[..2]), m.id, m.nonce, m.token))
  }

  /** `struct.unpack("!h12si64sb", res)`: exactly 83 bytes, the last one a signed status. */
  function DecodeIndividualStatus(res: seq<byte>): (r: Result<IndividualTokenStatus, CodecError>)
    ensures |res| != IndividualStatusSize ==> r == Err(WrongLength(IndividualStatusSize, |res|))
    ensures |res| == IndividualStatusSize && r.Err? ==> r.error == NonAsciiText
    ensures r.Ok? <==> |res| == IndividualStatusSize && UnpackMember(res[2..IndividualResponseSize]).Ok?
    ensures r.Ok? ==> (r.value.typ == Int16Value(res[..2]) && r.value.status == Int8Value(res[IndividualResponseSize..])
      && UnpackMember(res[2..IndividualResponseSize]) == Ok(Member(r.value.id, r.value.nonce, r.value.token)))
  {
    if |res| != IndividualStatusSize then Err(WrongLength(IndividualStatusSize, |res|))
    else
      var m :- UnpackMember(res[2..IndividualResponseSize]);
      Ok(IndividualTokenStatus(Int16Value(res[..2]), m.id, m.nonce, m.token, Int8Value(res[IndividualResponseSize..])))
  }

  /** A response laid out as (typ, member) decodes to that type and the member's
      normalized fields, whatever typ is: the type is never checked. */
  lemma IndividualResponseRoundTrip(typ: int, m: Member)
    requires InInt16(typ) && PackMember(m).Ok?
    ensures DecodeIndividualResponse(Int16Bytes(typ) + PackMember(m).value)
      == Ok(IndividualTokenResponse(typ, Normalized(m).id, m.nonce, Normalized(m).token))
  {
    var res := Int16Bytes(typ) + PackMember(m).value;
    assert res[..2] == Int16Bytes(typ);
    assert res[2..] == PackMember(m).value;
    MemberRoundTrip(m);
  }

  /** A status laid out as (typ, member, status) decodes to those values. */
  lemma IndividualStatusRoundTrip(typ: int, m: Member, status: int)
    requires InInt16(typ) && InInt8(status) && PackMember(m).Ok?
    ensures DecodeIndividualStatus(Int16Bytes(typ) + PackMember(m).value + Int8Bytes(status))
      == Ok(IndividualTokenStatus(typ, Normalized(m).id, m.nonce, Normalized(m).token, status))
  {
    var res := Int16Bytes(typ) + PackMember(m).value + Int8Bytes(status);
    assert res[..2] == Int16Bytes(typ);
    assert res[2..IndividualResponseSize] == PackMember(m).value;
    assert res[IndividualResponseSize..] == Int8Bytes(status);
    MemberRoundTrip(m);
  }

  /** The validation layout is the response layout: a validation payload read
      as a response gives back type 3 and the validation's canonical fields. */
  lemma IndividualValidationEcho(v: IndividualTokenValidation)
    requires IsCanonical(ValidationMember(v))
    ensures EncodeIndividualValidation(v).Ok?
    ensures DecodeIndividualResponse(EncodeIndividualValidation(v).value)
      == Ok(IndividualTokenResponse(IndividualValidationType, v.id, v.nonce, v.token))
  {
    NormalizedCanonical(ValidationMember(v));
    IndividualResponseRoundTrip(IndividualValidationType, ValidationMember(v));
  }

  /** "alice" space-padded to 12 characters, as ASCII bytes. */
  lemma AliceIdField()
    ensures AsciiField(LeftJustify("alice", IdSize), IdSize) == Ok([97, 108, 105, 99, 101, 32, 32, 32, 32, 32, 32, 32])
  {
    var padded := LeftJustify("alice", IdSize);
    assert padded == "alice       ";
    var idBytes: seq<byte> := [97, 108, 105, 99, 101, 32, 32, 32, 32, 32, 32, 32];
    assert forall i :: 0 <= i < IdSize ==> padded[i] as int == idBytes[i];
    var encoded := EncodeAscii(padded).value;
    assert forall i :: 0 <= i < IdSize ==> encoded[i] == idBytes[i];
    assert encoded == idBytes;
    assert FixedWidth(idBytes, IdSize) == idBytes;
  }

  /** Type 1 and nonce 42 in network byte order. */
  lemma AliceIntegers()
    ensures Int16Bytes(1) == [0, 1] && Int32Bytes(42) == [0, 0, 0, 42]
  {
    Pow256Values();
  }

  /** The request payload for id "alice" and nonce 42: type 1, "alice" and seven spaces, then 42. */
  lemma AliceRequestBytes()
    ensures EncodeIndividualRequest(IndividualTokenRequest("alice", 42))
      == Ok([0, 1, 97, 108, 105, 99, 101, 32, 32, 32, 32, 32, 32, 32, 0, 0, 0, 42])
  {
    AliceIdField();
    var idBytes: seq<byte> := [97, 108, 105, 99, 101, 32, 32, 32, 32, 32, 32, 32];
    AliceIntegers();
    var req := IndividualTokenRequest("alice", 42);
    assert InInt32(req.nonce);
    assert EncodeIndividualRequest(req) == Ok(Int16Bytes(1) + idBytes + Int32Bytes(42));
    AlicePayload();
  }

  lemma AlicePayload()
    ensures [0, 1] + [97, 108, 105, 99, 101, 32, 32, 32, 32, 32, 32, 32] + [0, 0, 0, 42]
      == [0, 1, 97, 108, 105, 99, 101, 32, 32, 32, 32, 32, 32, 32, 0, 0, 0, 42]
  {
  }
}

=== FILE: display.dfy ===
/** The text forms of tokens the client prints: the SAS `id:nonce:token` of an
    individual token and the GAS `sas-1+...+sas-n+token` of a group token. The
    nonce is written as Python writes an int: optional minus sign, decimal digits,
    no leading zeros. */
module Display {
  import opened Wrappers
  import opened Messages

  // ---------------------------------------------------------------------------
  // Decimal numerals
  // ---------------------------------------------------------------------------

  predicate IsDigit(c: char) {
    '0' <= c <= '9'
  }

  predicate AllDigits(s: string) {
    forall i :: 0 <= i < |s| ==> IsDigit(s[i])
  }

  function DigitChar(d: int): (c: char)
    requires 0 <= d < 10
    ensures IsDigit(c) && c as int - '0' as int == d
  {
    ('0' as int + d) as char
  }

  /** The digits of n, most significant first, without leading zeros. */
  function NatDigits(n: nat): (s: string)
    ensures |s| >= 1 && AllDigits(s)
    ensures s[0] == '0' ==> n == 0
    decreases n
  {
    if n < 10 then [DigitChar(n)] else NatDigits(n / 10) + [DigitChar(n % 10)]
  }

  /** The number a string of digits denotes. */
  function DigitsValue(s: string): nat
    requires AllDigits(s)
    decreases |s|
  {
    if |s| == 0 then 0 else 10 * DigitsValue(s[..|s| - 1]) + (s[|s| - 1] as int - '0' as int)
  }

  lemma {:induction false} DigitsRoundTrip(n: nat)
    ensures DigitsValue(NatDigits(n)) == n
    decreases n
  {
    if n >= 10 {
      var s := NatDigits(n);
      assert s[..|s| - 1] == NatDigits(n / 10);
      DigitsRoundTrip(n / 10);
    }
  }

  /** A numeral as `str` writes one for a natural number: at least one digit,
      and no leading zero unless the numeral is "0" itself. */
  predicate IsNumeral(s: string) {
    |s| >= 1 && AllDigits(s) && (s[0] == '0' ==> s == "0")
  }

  /** `str(i)` for a Python int. */
  function DecimalString(i: int): (s: string)
    ensures |s| >= 1
    ensures s[0] == '-' <==> i < 0
    ensures forall k :: 0 <= k < |s| ==> IsDigit(s[k]) || (k == 0 && s[k] == '-')
    ensures var d := if i < 0 then 1 else 0; |s| > d && (s[d] == '0' ==> s == "0")
  {
    if i < 0 then "-" + NatDigits(-i) else NatDigits(i)
  }

  /** Reads back exactly the numerals `str(int)` writes: a numeral, or a minus
      sign followed by a numeral other than "0". */
  function ParseDecimal(s: string): (r: Option<int>)
    ensures r.Some? <==> IsNumeral(s) || (|s| >= 2 && s[0] == '-' && IsNumeral(s[1..]) && s[1..] != "0")
  {
    if |s| >= 2 && s[0] == '-' && IsNumeral(s[1..]) && s[1..] != "0" then Some(0 - DigitsValue(s[1..]) as int)
    else if IsNumeral(s) then Some(DigitsValue(s))
    else None
  }

  /** A numeral that does not start with '0' denotes a positive number. */
  lemma {:induction false} LeadingDigitPositive(s: string)
    requires IsNumeral(s) && s[0] != '0'
    ensures DigitsValue(s) >= 1
    decreases |s|
  {
    if |s| > 1 {
      var init := s[..|s| - 1];
      assert init[0] == s[0];
      LeadingDigitPositive(init);
    }
  }

  /** Writing out the value of a numeral gives the numeral back. */
  lemma {:induction false} NumeralRoundTrip(s: string)
    requires IsNumeral(s)
    ensures NatDigits(DigitsValue(s)) == s
    decreases |s|
  {
    if |s| > 1 {
      var init := s[..|s| - 1];
      assert init[0] == s[0];
      LeadingDigitPositive(init);
      NumeralRoundTrip(init);
      assert s == init + [s[|s| - 1]];
    }
  }

  lemma DecimalRoundTrip(i: int)
    ensures ParseDecimal(DecimalString(i)) == Some(i)
  {
    var s := DecimalString(i);
    if i < 0 {
      var digits := NatDigits(-i);
      assert s[1..] == digits;
      assert IsNumeral(digits) && digits != "0";
      DigitsRoundTrip(-i);
      assert ParseDecimal(s) == Some(0 - DigitsValue(digits));
    } else {
      assert IsNumeral(s);
      DigitsRoundTrip(i);
      assert ParseDecimal(s) == Some(DigitsValue(s));
    }
  }

  /** Every string ParseDecimal accepts is the numeral of the number it reads. */
  lemma ParsedNumeral(s: string)
    requires ParseDecimal(s).Some?
    ensures DecimalString(ParseDecimal(s).value) == s
  {
    if |s| >= 2 && s[0] == '-' && IsNumeral(s[1..]) && s[1..] != "0" {
      assert s[1..][0] != '0';
      LeadingDigitPositive(s[1..]);
      NumeralRoundTrip(s[1..]);
      assert s == "-" + s[1..];
    } else {
      NumeralRoundTrip(s);
    }
  }

  // ---------------------------------------------------------------------------
  // Joining and splitting on a separator
  // ---------------------------------------------------------------------------

  /** The position of the first occurrence of c in s. */
  function IndexOf(s: string, c: char): (i: nat)
    requires c in s
    ensures i < |s| && s[i] == c && c !in s[..i]
    decreases |s|
  {
    if s[0] == c then 0
    else
      var j := IndexOf(s[1..], c);
      assert s[..j + 1] == [s[0]] + s[1..][..j];
      j + 1
  }

  lemma IndexOfFirst(s: string, c: char, i: nat)
    requires i < |s| && s[i] == c && c !in s[..i]
    ensures IndexOf(s, c) == i
  {
  }

  /** Python's `sep.join(parts)`: the empty list joins to the empty string. */
  function Join(parts: seq<string>, sep: char): (s: string)
    ensures |parts| == 0 ==> s == ""
    ensures |parts| == 1 ==> s == parts[0]
    ensures |parts| >= 2 ==> |s| > |parts[0]| && s[..|parts[0]|] == parts[0] && s[|parts[0]|] == sep
    decreases |parts|
  {
    if |parts| == 0 then ""
    else if |parts| == 1 then parts[0]
    else parts[0] + [sep] + Join(parts[1..], sep)
  }

  /** Python's `s.split(sep)`: always at least one part; no part holds sep. */
  function Split(s: string, sep: char): (parts: seq<string>)
    ensures |parts| >= 1
    ensures forall k :: 0 <= k < |parts| ==> sep !in parts[k]
    decreases |s|
  {
    if sep in s then
      var i := IndexOf(s, sep);
      [s[..i]] + Split(s[i + 1..], sep)
    else
      [s]
  }

  /** Parts free of the separator are recovered by splitting their join. */
  lemma {:induction false} SplitJoin(parts: seq<string>, sep: char)
    requires |parts| >= 1
    requires forall k :: 0 <= k < |parts| ==> sep !in parts[k]
    ensures Split(Join(parts, sep), sep) == parts
    decreases |parts|
  {
    if |parts| > 1 {
      var rest := Join(parts[1..], sep);
      var s := parts[0] + [sep] + rest;
      assert s == Join(parts, sep);
      assert s[..|parts[0]|] == parts[0];
      assert s[|parts[0]|] == sep;
      IndexOfFirst(s, sep, |parts[0]|);
      assert s[|parts[0]| + 1..] == rest;
      SplitJoin(parts[1..], sep);
      assert [parts[0]] + parts[1..] == parts;
    }
  }

  /** Joining the parts of a split gives back the string. */
  lemma {:induction false} JoinSplit(s: string, sep: char)
    ensures Join(Split(s, sep), sep) == s
    decreases |s|
  {
    if sep in s {
      var i := IndexOf(s, sep);
      var tail := s[i + 1..];
      JoinSplit(tail, sep);
      var parts := Split(s, sep);
      assert parts[1..] == Split(tail, sep);
      assert s == s[..i] + [sep] + tail;
    }
  }

  /** Joining one more part at the end appends the separator and that part. */
  lemma {:induction false} JoinSnoc(parts: seq<string>, x: string, sep: char)
    requires |parts| >= 1
    ensures Join(parts + [x], sep) == Join(parts, sep) + [sep] + x
    decreases |parts|
  {
    if |parts| > 1 {
      assert (parts + [x])[1..] == parts[1..] + [x];
      JoinSnoc(parts[1..], x, sep);
    } else {
      assert (parts + [x])[1..] == [x];
    }
  }

  // ---------------------------------------------------------------------------
  // SAS and GAS
  // ---------------------------------------------------------------------------

  /** `id:nonce:token`: the id, a ':', the nonce's numeral, a ':', the token. */
  function Sas(id: string, nonce: int, token: string): (s: string)
    ensures |s| > |id| + |token| + 1
    ensures s[..|id|] == id && s[|id|] == ':'
    ensures s[|s| - |token|..] == token && s[|s| - |token| - 1] == ':'
  {
    id + ":" + DecimalString(nonce) + ":" + token
  }

  /** An SAS splits on ':' into id, nonce numeral and token, and the nonce reads
      back, provided neither id nor token holds a ':'. */
  lemma SasSplits(id: string, nonce: int, token: string)
    requires ':' !in id && ':' !in token
    ensures Split(Sas(id, nonce, token), ':') == [id, DecimalString(nonce), token]
    ensures ParseDecimal(Split(Sas(id, nonce, token), ':')[1]) == Some(nonce)
  {
    var parts := [id, DecimalString(nonce), token];
    assert Join(parts, ':') == Sas(id, nonce, token) by {
      assert Join(parts[1..], ':') == DecimalString(nonce) + [':'] + token;
    }
    SplitJoin(parts, ':');
    DecimalRoundTrip(nonce);
  }

  /** getStringSAS of an individual token response: when neither id nor token
      holds a ':', the string splits back into the response's id, nonce and token. */
  function SasString(r: IndividualTokenResponse): (s: string)
    ensures ':' !in r.id && ':' !in r.token ==>
      && Split(s, ':') == [r.id, DecimalString(r.nonce), r.token]
      && ParseDecimal(Split(s, ':')[1]) == Some(r.nonce)
  {
    var s := Sas(r.id, r.nonce, r.token);
    if ':' !in r.id && ':' !in r.token then SasSplits(r.id, r.nonce, r.token); s else s
  }

  function Sases(group: seq<Member>): (sases: seq<string>)
    ensures |sases| == |group|
  {
    seq(|group|, i requires 0 <= i < |group| => Sas(group[i].id, group[i].nonce, group[i].token))
  }

  /** getStringGAS: the members' SASes joined by '+', then '+' and the token;
      an empty group gives "+token". */
  function GasString(r: GroupTokenResponse): (s: string)
    ensures |r.group| == 0 ==> s == "+" + r.token
    ensures |s| > |r.token| && s[|s| - |r.token| - 1..] == "+" + r.token
  {
    Join(Sases(r.group), '+') + "+" + r.token
  }

  predicate PlusFree(s: string) {
    '+' !in s
  }

  /** A GAS whose members and token hold no '+' splits into the members' SASes
      followed by the token; for an empty group the first part is empty. */
  lemma {:induction false} GasSplits(r: GroupTokenResponse)
    requires forall i :: 0 <= i < |r.group| ==> PlusFree(r.group[i].id) && PlusFree(r.group[i].token)
    requires PlusFree(r.token)
    ensures |r.group| == 0 ==> Split(GasString(r), '+') == ["", r.token]
    ensures |r.group| > 0 ==> Split(GasString(r), '+') == Sases(r.group) + [r.token]
  {
    var sases := Sases(r.group);
    if |r.group| == 0 {
      assert GasString(r) == Join(["", r.token], '+');
      SplitJoin(["", r.token], '+');
    } else {
      forall k | 0 <= k < |sases|
        ensures '+' !in sases[k]
      {
        var m := r.group[k];
        assert sases[k] == m.id + ":" + DecimalString(m.nonce) + ":" + m.token;
      }
      JoinSnoc(sases, r.token, '+');
      SplitJoin(sases + [r.token], '+');
    }
  }
}

=== FILE: group.dfy ===
/** The group-token layouts. After a 4-byte header (type, n) comes a region of
    exactly 80·n bytes holding one member chunk per entry, in list order:
      request     `!hh{80n}s`        4 + 80n bytes
      validation  `!hh{80n}s64s`     4 + 80n + 64 bytes (also the response layout)
      status      `!hh{80n}s64sb`    4 + 80n + 65 bytes
    The region is a struct `Ns` field, so the packed chunks are NUL-padded or cut
    to 80·n bytes: a group list whose length differs from n is not rejected. */
module GroupCodec {
  import opened Wrappers
  import opened Wire
  import opened Messages
  import opened Codec

  /** The i-th 80-byte chunk of a member region. */
  function Chunk(region: seq<byte>, i: nat): (c: seq<byte>)
    requires 80 * (i + 1) <= |region|
    ensures |c| == MemberSize
  {
    region[80 * i..80 * (i + 1)]
  }

  /** A declared group size the `!hh` header accepts: a negative n makes the
      format itself invalid and a larger one does not fit the int16 field. */
  predicate IsGroupSize(n: int) {
    0 <= n < 0x8000
  }

  function RegionEnd(n: nat): nat {
    4 + 80 * n
  }

  /** Every byte of s from position lo (or 0) up to hi is NUL. */
  predicate NulBetween(s: seq<byte>, lo: int, hi: int)
    requires hi <= |s|
  {
    forall k :: lo <= k < hi && 0 <= k ==> s[k] == 0
  }

  /** Chunk 0 of a region is its first 80 bytes; chunk i + 1 is chunk i of the rest. */
  lemma {:induction false} ChunksOfTail(region: seq<byte>, n: nat)
    requires |region| == 80 * n && n > 0
    ensures Chunk(region, 0) == region[..80]
    ensures forall i :: 0 <= i < n - 1 ==> Chunk(region, i + 1) == Chunk(region[80..], i)
  {
    forall i | 0 <= i < n - 1
      ensures Chunk(region, i + 1) == Chunk(region[80..], i)
    {
      var tail := region[80..];
      forall k | 0 <= k < 80
        ensures Chunk(region, i + 1)[k] == Chunk(tail, i)[k]
      {
        assert Chunk(region, i + 1)[k] == region[80 * (i + 1) + k];
        assert Chunk(tail, i)[k] == tail[80 * i + k] == region[80 + 80 * i + k];
      }
    }
  }

  /** The chunks of every member, concatenated in list order; fails at the
      first member that cannot be packed. */
  function PackMembers(group: seq<Member>): (r: Result<seq<byte>, CodecError>)
    ensures r.Ok? <==> forall i :: 0 <= i < |group| ==> PackMember(group[i]).Ok?
    ensures r.Ok? ==> |r.value| == 80 * |group|
    ensures r.Ok? ==> forall i :: 0 <= i < |group| ==> Chunk(r.value, i) == PackMember(group[i]).value
  {
    if |group| == 0 then Ok([])
    else
      var head :- PackMember(group[0]);
      var tail :- PackMembers(group[1..]);
      assert (head + tail)[80..] == tail;
      ChunksOfTail(head + tail, |group|);
      Ok(head + tail)
  }

  /** The members of an 80·n-byte region, chunk i giving member i; fails when a
      chunk holds a non-ASCII text byte. */
  function UnpackMembers(region: seq<byte>, n: nat): (r: Result<seq<Member>, CodecError>)
    requires |region| == 80 * n
    ensures r.Ok? <==> forall i :: 0 <= i < n ==> UnpackMember(Chunk(region, i)).Ok?
    ensures r.Err? ==> r.error == NonAsciiText
    ensures r.Ok? ==> |r.value| == n && forall i :: 0 <= i < n ==> UnpackMember(Chunk(region, i)) == Ok(r.value[i])
  {
    if n == 0 then Ok([])
    else
      ChunksOfTail(region, n);
      var m :- UnpackMember(region[..MemberSize]);
      var rest :- UnpackMembers(region[MemberSize..], n - 1);
      UnpackedCons(region, n, m, rest);
      Ok([m] + rest)
  }

  lemma {:induction false} UnpackedCons(region: seq<byte>, n: nat, m: Member, rest: seq<Member>)
    requires |region| == 80 * n && n > 0
    requires UnpackMember(region[..80]) == Ok(m)
    requires |rest| == n - 1
    requires forall i :: 0 <= i < n - 1 ==> UnpackMember(Chunk(region[80..], i)) == Ok(rest[i])
    ensures forall i :: 0 <= i < n ==> UnpackMember(Chunk(region, i)) == Ok(([m] + rest)[i])
  {
    var tail := region[80..];
    ChunksOfTail(region, n);
    forall i | 0 <= i < n
      ensures UnpackMember(Chunk(region, i)) == Ok(([m] + rest)[i])
    {
      if i == 0 {
        assert Chunk(region, 0) == region[..80];
      } else {
        assert ([m] + rest)[i] == rest[i - 1];
      }
    }
  }

  // ---------------------------------------------------------------------------
  // Encoders
  // ---------------------------------------------------------------------------

  /** The gtr payload: type 5, n, and the members' chunks NUL-padded or cut to 80·n bytes. */
  function EncodeGroupRequest(req: GroupTokenRequest): (r: Result<seq<byte>, CodecError>)
    ensures r.Ok? <==> (forall i :: 0 <= i < |req.group| ==> PackMember(req.group[i]).Ok?) && IsGroupSize(req.n)
    ensures PackMembers(req.group).Err? ==> r == Err(PackMembers(req.group).error)
    ensures PackMembers(req.group).Ok? && !IsGroupSize(req.n) ==> r == Err(IntegerOutOfRange)
    ensures r.Ok? ==> |r.value| == RegionEnd(req.n)
    ensures r.Ok? ==> Int16Value(r.value[..2]) == GroupRequestType && Int16Value(r.value[2..4]) == req.n
    ensures r.Ok? ==> forall i :: 0 <= i < req.n && i < |req.group| ==>
                        Chunk(r.value[4..], i) == PackMember(req.group[i]).value
    ensures r.Ok? ==> NulBetween(r.value, 4 + 80 * |req.group|, |r.value|)
  {
    var chunks :- PackMembers(req.group);
    if !IsGroupSize(req.n) then Err(IntegerOutOfRange)
    else
      var payload := Int16Bytes(GroupRequestType) + Int16Bytes(req.n) + FixedWidth(chunks, 80 * req.n);
      GroupPayload(GroupRequestType, req.n, chunks, req.group, []);
      assert payload + [] == payload;
      Ok(payload)
  }

  /** The common layout of the group payloads: header, the region of n chunks,
      then whatever follows it. */
  lemma {:induction false} GroupPayload(typ: int, n: int, chunks: seq<byte>, group: seq<Member>, tail: seq<byte>)
    requires InInt16(typ) && IsGroupSize(n) && PackMembers(group) == Ok(chunks)
    ensures var p := Int16Bytes(typ) + Int16Bytes(n) + FixedWidth(chunks, 80 * n) + tail;
      && |p| == RegionEnd(n) + |tail|
      && Int16Value(p[..2]) == typ && Int16Value(p[2..4]) == n
      && (forall i :: 0 <= i < n && i < |group| ==> Chunk(p[4..RegionEnd(n)], i) == PackMember(group[i]).value)
      && NulBetween(p, 4 + 80 * |group|, RegionEnd(n))
      && p[RegionEnd(n)..] == tail
  {
    var region := FixedWidth(chunks, 80 * n);
    var p := Int16Bytes(typ) + Int16Bytes(n) + region + tail;
    SlicesOfConcat(Int16Bytes(typ), Int16Bytes(n), region, tail);
    RegionChunks(chunks, group, n);
    forall k | 4 + 80 * |group| <= k < RegionEnd(n)
      ensures p[k] == 0
    {
      assert p[k] == region[k - 4];
    }
  }

  /** Cutting or padding a region to w bytes leaves every chunk that fits in both unchanged. */
  lemma {:induction false} ChunkOfFixedWidth(data: seq<byte>, w: nat, i: nat)
    requires 80 * (i + 1) <= w && 80 * (i + 1) <= |data|
    ensures Chunk(FixedWidth(data, w), i) == Chunk(data, i)
  {
    var f := FixedWidth(data, w);
    forall k | 0 <= k < 80
      ensures Chunk(f, i)[k] == Chunk(data, i)[k]
    {
      assert Chunk(f, i)[k] == f[80 * i + k];
      assert Chunk(data, i)[k] == data[80 * i + k];
    }
  }

  /** The chunks that survive the cut to 80·n bytes are the members' own. */
  lemma {:induction false} RegionChunks(chunks: seq<byte>, group: seq<Member>, n: nat)
    requires PackMembers(group) == Ok(chunks)
    ensures forall i :: 0 <= i < n && i < |group| ==>
              Chunk(FixedWidth(chunks, 80 * n), i) == PackMember(group[i]).value
  {
    forall i | 0 <= i < n && i < |group|
      ensures Chunk(FixedWidth(chunks, 80 * n), i) == PackMember(group[i]).value
    {
      ChunkOfFixedWidth(chunks, 80 * n, i);
    }
  }

  /** The gtv payload: type 7, n, the members' region, then the aggregate token field. */
  function EncodeGroupValidation(v: GroupTokenValidation): (r: Result<seq<byte>, CodecError>)
    ensures r.Ok? <==> (forall i :: 0 <= i < |v.group| ==> PackMember(v.group[i]).Ok?)
                       && IsAsciiText(v.token) && IsGroupSize(v.n)
    ensures PackMembers(v.group).Err? ==> r == Err(PackMembers(v.group).error)
    ensures PackMembers(v.group).Ok? && !IsAsciiText(v.token) ==> r == Err(NonAsciiText)
    ensures PackMembers(v.group).Ok? && IsAsciiText(v.token) && !IsGroupSize(v.n) ==> r == Err(IntegerOutOfRange)
    ensures r.Ok? ==> |r.value| == RegionEnd(v.n) + TokenSize
    ensures r.Ok? ==> Int16Value(r.value[..2]) == GroupValidationType && Int16Value(r.value[2..4]) == v.n
    ensures r.Ok? ==> forall i :: 0 <= i < v.n && i < |v.group| ==>
                        Chunk(r.value[4..RegionEnd(v.n)], i) == PackMember(v.group[i]).value
    ensures r.Ok? ==> NulBetween(r.value, 4 + 80 * |v.group|, RegionEnd(v.n))
    ensures r.Ok? ==> DecodeAscii(r.value[RegionEnd(v.n)..]) == Some(PadText(v.token, TokenSize))
  {
    var chunks :- PackMembers(v.group);
    var tokenField :- AsciiField(v.token, TokenSize);
    if !IsGroupSize(v.n) then Err(IntegerOutOfRange)
    else
      var payload := Int16Bytes(GroupValidationType) + Int16Bytes(v.n) + FixedWidth(chunks, 80 * v.n) + tokenField;
      ValidationPayload(v, chunks, tokenField, payload);
      Ok(payload)
  }

  /** The gtv layout's fields, in the terms of EncodeGroupValidation's contract. */
  lemma ValidationPayload(v: GroupTokenValidation, chunks: seq<byte>, tokenField: seq<byte>, p: seq<byte>)
    requires PackMembers(v.group) == Ok(chunks) && IsGroupSize(v.n)
    requires AsciiField(v.token, TokenSize) == Ok(tokenField)
    requires p == Int16Bytes(GroupValidationType) + Int16Bytes(v.n) + FixedWidth(chunks, 80 * v.n) + tokenField
    ensures |p| == RegionEnd(v.n) + TokenSize
    ensures Int16Value(p[..2]) == GroupValidationType && Int16Value(p[2..4]) == v.n
    ensures forall i :: 0 <= i < v.n && i < |v.group| ==> Chunk(p[4..RegionEnd(v.n)], i) == PackMember(v.group[i]).value
    ensures NulBetween(p, 4 + 80 * |v.group|, RegionEnd(v.n))
    ensures DecodeAscii(p[RegionEnd(v.n)..]) == Some(PadText(v.token, TokenSize))
  {
    GroupPayload(GroupValidationType, v.n, chunks, v.group, tokenField);
  }

  // ---------------------------------------------------------------------------
  // Decoders
  // ---------------------------------------------------------------------------

  /** `struct.unpack(f"!hh{80*n}s64s", res)` with n taken from the request:
      exactly 4 + 80n + 64 bytes; member i from chunk i of the region; type and
      the received count returned as they are. */
  function DecodeGroupResponse(res: seq<byte>, n: nat): (r: Result<GroupTokenResponse, CodecError>)
    ensures |res| != RegionEnd(n) + TokenSize ==> r == Err(WrongLength(RegionEnd(n) + TokenSize, |res|))
    ensures |res| == RegionEnd(n) + TokenSize && r.Err? ==> r.error == NonAsciiText
    ensures r.Ok? <==> |res| == RegionEnd(n) + TokenSize
                       && UnpackMembers(res[4..RegionEnd(n)], n).Ok? && IsAsciiBytes(res[RegionEnd(n)..])
    ensures r.Ok? ==> |r.value.group| == n
    ensures r.Ok? ==> forall i :: 0 <= i < n ==> UnpackMember(Chunk(res[4..RegionEnd(n)], i)) == Ok(r.value.group[i])
    ensures r.Ok? ==> r.value.typ == Int16Value(res[..2]) && r.value.n == Int16Value(res[2..4])
    ensures r.Ok? ==> DecodeAscii(res[RegionEnd(n)..]) == Some(r.value.token)
  {
    if |res| != RegionEnd(n) + TokenSize then Err(WrongLength(RegionEnd(n) + TokenSize, |res|))
    else
      var group :- UnpackMembers(res[4..RegionEnd(n)], n);
      var token :- DecodeAscii(res[RegionEnd(n)..]).ToResult(NonAsciiText);
      Ok(GroupTokenResponse(Int16Value(res[..2]), Int16Value(res[2..4]), group, token))
  }

  /** `struct.unpack(f"!hh{80*n}s64sb", res)`: the response layout plus a signed status byte. */
  function DecodeGroupStatus(res: seq<byte>, n: nat): (r: Result<GroupTokenStatus, CodecError>)
    ensures |res| != RegionEnd(n) + TokenSize + 1 ==> r == Err(WrongLength(RegionEnd(n) + TokenSize + 1, |res|))
    ensures |res| == RegionEnd(n) + TokenSize + 1 && r.Err? ==> r.error == NonAsciiText
    ensures r.Ok? <==> |res| == RegionEnd(n) + TokenSize + 1
                       && UnpackMembers(res[4..RegionEnd(n)], n).Ok? && IsAsciiBytes(res[RegionEnd(n)..|res| - 1])
    ensures r.Ok? ==> |r.value.group| == n
    ensures r.Ok? ==> forall i :: 0 <= i < n ==> UnpackMember(Chunk(res[4..RegionEnd(n)], i)) == Ok(r.value.group[i])
    ensures r.Ok? ==> r.value.typ == Int16Value(res[..2]) && r.value.n == Int16Value(res[2..4])
    ensures r.Ok? ==> DecodeAscii(res[RegionEnd(n)..|res| - 1]) == Some(r.value.token)
    ensures r.Ok? ==> r.value.status == Int8Value(res[|res| - 1..])
  {
    if |res| != RegionEnd(n) + TokenSize + 1 then Err(WrongLength(RegionEnd(n) + TokenSize + 1, |res|))
    else
      var group :- UnpackMembers(res[4..RegionEnd(n)], n);
      var token :- DecodeAscii(res[RegionEnd(n)..|res| - 1]).ToResult(NonAsciiText);
      Ok(GroupTokenStatus(Int16Value(res[..2]), Int16Value(res[2..4]), group, token, Int8Value(res[|res| - 1..])))
  }

  // ---------------------------------------------------------------------------
  // Properties
  // ---------------------------------------------------------------------------

  /** Each member of a group, as it reads back after packing. */
  function NormalizedGroup(group: seq<Member>): (g: seq<Member>)
    ensures |g| == |group|
  {
    seq(|group|, i requires 0 <= i < |group| => Normalized(group[i]))
  }

  /** Unpacking packed members gives back every member, normalized, in list order. */
  lemma {:induction false} MembersRoundTrip(group: seq<Member>)
    requires PackMembers(group).Ok?
    ensures UnpackMembers(PackMembers(group).value, |group|) == Ok(NormalizedGroup(group))
  {
    var region := PackMembers(group).value;
    var expected := NormalizedGroup(group);
    forall i | 0 <= i < |group|
      ensures UnpackMember(Chunk(region, i)) == Ok(expected[i])
    {
      MemberRoundTrip(group[i]);
    }
    var r := UnpackMembers(region, |group|);
    assert r.Ok?;
    assert forall i :: 0 <= i < |group| ==> r.value[i] == expected[i];
    assert r.value == expected;
    assert r == Ok(expected);
  }

  /** The bytes of a group response or validation: header, member chunks, token field. */
  function GroupLayout(typ: int, count: int, group: seq<Member>, token: string): (bs: seq<byte>)
    requires InInt16(typ) && InInt16(count) && PackMembers(group).Ok? && IsAsciiText(token)
    ensures |bs| == RegionEnd(|group|) + TokenSize
  {
    Int16Bytes(typ) + Int16Bytes(count) + PackMembers(group).value + AsciiField(token, TokenSize).value
  }

  /** A response laid out with |group| chunks and decoded with n = |group| gives
      back the type and count as sent, the members normalized and in order, and
      the token NUL-padded or cut to 64 characters. */
  lemma {:induction false} GroupResponseRoundTrip(typ: int, count: int, group: seq<Member>, token: string)
    requires InInt16(typ) && InInt16(count) && PackMembers(group).Ok? && IsAsciiText(token)
    ensures DecodeGroupResponse(GroupLayout(typ, count, group, token), |group|)
      == Ok(GroupTokenResponse(typ, count, NormalizedGroup(group), PadText(token, TokenSize)))
  {
    var res := GroupLayout(typ, count, group, token);
    var n := |group|;
    SlicesOfConcat(Int16Bytes(typ), Int16Bytes(count), PackMembers(group).value, AsciiField(token, TokenSize).value);
    MembersRoundTrip(group);
    var r := DecodeGroupResponse(res, n);
    assert r.Ok?;
    assert r.value.group == NormalizedGroup(group);
    assert r.value.token == PadText(token, TokenSize);
    assert r.value == GroupTokenResponse(typ, count, NormalizedGroup(group), PadText(token, TokenSize));
  }

  /** A status laid out as a response plus one status byte decodes the same way, with that status. */
  lemma {:induction false} GroupStatusRoundTrip(typ: int, count: int, group: seq<Member>, token: string, status: int)
    requires InInt16(typ) && InInt16(count) && PackMembers(group).Ok? && IsAsciiText(token) && InInt8(status)
    ensures DecodeGroupStatus(GroupLayout(typ, count, group, token) + Int8Bytes(status), |group|)
      == Ok(GroupTokenStatus(typ, count, NormalizedGroup(group), PadText(token, TokenSize), status))
  {
    var header := Int16Bytes(typ) + Int16Bytes(count);
    var region := PackMembers(group).value;
    var tokenField := AsciiField(token, TokenSize).value;
    var res := header + region + tokenField + Int8Bytes(status);
    var n := |group|;
    assert GroupLayout(typ, count, group, token) + Int8Bytes(status) == res;
    assert |header| == 4 && |region| == 80 * n && |tokenField| == TokenSize;
    SlicesOfConcat(header, region, tokenField, Int8Bytes(status));
    assert res[4..RegionEnd(n)] == region;
    assert res[RegionEnd(n)..|res| - 1] == tokenField;
    assert res[|res| - 1..] == Int8Bytes(status);
    HeaderFields(res, Int16Bytes(typ), Int16Bytes(count));
    MembersRoundTrip(group);
    var r := DecodeGroupStatus(res, n);
    assert r.Ok?;
    assert r.value.group == NormalizedGroup(group);
    assert r.value.token == PadText(token, TokenSize);
    assert r.value == GroupTokenStatus(typ, count, NormalizedGroup(group), PadText(token, TokenSize), status);
  }

  /** A validation whose n equals its group's length, read back as a response,
      gives type 7, n, the members in their original order, and the token. */
  lemma GroupValidationEcho(v: GroupTokenValidation)
    requires |v.group| == v.n
    requires EncodeGroupValidation(v).Ok?
    ensures DecodeGroupResponse(EncodeGroupValidation(v).value, v.n)
      == Ok(GroupTokenResponse(GroupValidationType, v.n, NormalizedGroup(v.group), PadText(v.token, TokenSize)))
  {
    var chunks := PackMembers(v.group).value;
    assert FixedWidth(chunks, 80 * v.n) == chunks;
    assert EncodeGroupValidation(v).value == GroupLayout(GroupValidationType, v.n, v.group, v.token);
    GroupResponseRoundTrip(GroupValidationType, v.n, v.group, v.token);
  }

  /** For canonical members and a canonical 64-character token the echo is exact. */
  lemma CanonicalGroupValidationEcho(v: GroupTokenValidation)
    requires |v.group| == v.n && IsGroupSize(v.n)
    requires forall i :: 0 <= i < |v.group| ==> IsCanonical(v.group[i])
    requires IsAsciiText(v.token) && |v.token| == TokenSize
    ensures EncodeGroupValidation(v).Ok?
    ensures DecodeGroupResponse(EncodeGroupValidation(v).value, v.n)
      == Ok(GroupTokenResponse(GroupValidationType, v.n, v.group, v.token))
  {
    forall i | 0 <= i < |v.group|
      ensures Normalized(v.group[i]) == v.group[i]
    {
      NormalizedCanonical(v.group[i]);
    }
    assert NormalizedGroup(v.group) == v.group;
    assert PadText(v.token, TokenSize) == v.token;
    GroupValidationEcho(v);
  }

  /** Two regions that agree chunk by chunk on the first n chunks agree on those 80·n bytes. */
  lemma {:induction false} SameChunks(first: seq<byte>, all: seq<byte>, n: nat)
    requires |first| == 80 * n && 80 * n <= |all|
    requires forall i :: 0 <= i < n ==> Chunk(first, i) == Chunk(all, i)
    ensures first == all[..80 * n]
  {
    forall k | 0 <= k < 80 * n
      ensures first[k] == all[k]
    {
      var i := k / 80;
      assert 80 * i <= k < 80 * (i + 1);
      assert first[k] == Chunk(first, i)[k - 80 * i];
      assert all[k] == Chunk(all, i)[k - 80 * i];
    }
  }

  /** Members beyond the declared n are packed (so they must be encodable) and
      then cut away: the payload is the one for the first n members. */
  lemma {:induction false} GroupRequestDropsExtraMembers(req: GroupTokenRequest)
    requires EncodeGroupRequest(req).Ok? && req.n <= |req.group|
    ensures EncodeGroupRequest(GroupTokenRequest(req.n, req.group[..req.n])) == EncodeGroupRequest(req)
  {
    var n := req.n;
    var all := PackMembers(req.group).value;
    var first := PackMembers(req.group[..n]).value;
    forall i | 0 <= i < n
      ensures Chunk(first, i) == Chunk(all, i)
    {
      assert Chunk(first, i) == PackMember(req.group[i]).value;
    }
    SameChunks(first, all, n);
    assert FixedWidth(all, 80 * n) == first;
    assert FixedWidth(first, 80 * n) == first;
  }

  /** An all-NUL chunk reads back as an id of twelve NUL characters (NUL is not
      whitespace, so strip keeps them), nonce 0 and a token of 64 NULs. */
  lemma ZeroChunk()
    ensures UnpackMember(Zeros(MemberSize)) == Ok(Member(seq(IdSize, _ => '\0'), 0, seq(TokenSize, _ => '\0')))
  {
    var c := Zeros(MemberSize);
    var idBytes := c[..IdSize];
    assert |idBytes| == IdSize && forall k :: 0 <= k < |idBytes| ==> idBytes[k] == 0;
    assert IsAsciiBytes(idBytes);
    var id := DecodeAscii(idBytes).value;
    assert id == seq(IdSize, _ => '\0');
    assert LeadingSpace(id) == 0;
    assert TrailingSpace(id) == 0;
    assert Strip(id) == id;
    assert Int32Value(c[IdSize..IdSize + 4]) == 0;
    var t := c[IdSize + 4..];
    assert |t| == TokenSize && forall k :: 0 <= k < |t| ==> t[k] == 0;
    assert IsAsciiBytes(t);
    assert DecodeAscii(t).value == seq(TokenSize, _ => '\0');
  }

  /** Declared slots with no member behind them are all NULs, and read back as the all-NUL member. */
  lemma {:induction false} GroupRequestPadsMissingMembers(req: GroupTokenRequest, i: nat)
    requires EncodeGroupRequest(req).Ok? && |req.group| <= i < req.n
    ensures UnpackMember(Chunk(EncodeGroupRequest(req).value[4..], i))
      == Ok(Member(seq(IdSize, _ => '\0'), 0, seq(TokenSize, _ => '\0')))
  {
    PaddedChunkIsZero(EncodeGroupRequest(req).value, |req.group|, req.n, i);
    ZeroChunk();
  }

  /** In a layout whose bytes after the first m chunks are NUL, every later
      chunk of the region is 80 NULs. */
  lemma PaddedChunkIsZero(p: seq<byte>, m: nat, n: nat, i: nat)
    requires |p| == RegionEnd(n) && NulBetween(p, 4 + 80 * m, |p|) && m <= i < n
    ensures Chunk(p[4..], i) == Zeros(MemberSize)
  {
    var c := Chunk(p[4..], i);
    forall k | 0 <= k < MemberSize
      ensures c[k] == 0
    {
      assert c[k] == p[4 + 80 * i + k];
    }
  }

  /** No group layout is 4 bytes long, so an error reply is never a group reply. */
  lemma GroupLayoutsAreNotErrorSized(n: nat)
    ensures RegionEnd(n) + TokenSize != 4 && RegionEnd(n) + TokenSize + 1 != 4
  {
  }
}

=== FILE: messages.dfy ===
/** The protocol's records. Requests carry their fixed type code implicitly;
    responses and statuses carry the type field exactly as the server sent it. */
module Messages {

  /** Type codes of the requests the client sends, and the error marker. */
  const IndividualRequestType := 1
  const IndividualValidationType := 3
  const GroupRequestType := 5
  const GroupValidationType := 7
  const ServerErrorType := 256

  /** One (id, nonce, token) triple: an individual token, or one entry of a group. */
  datatype Member = Member(id: string, nonce: int, token: string)

  datatype IndividualTokenRequest = IndividualTokenRequest(id: string, nonce: int)

  datatype IndividualTokenResponse = IndividualTokenResponse(typ: int, id: string, nonce: int, token: string)

  datatype IndividualTokenValidation = IndividualTokenValidation(id: string, nonce: int, token: string)

  datatype IndividualTokenStatus = IndividualTokenStatus(typ: int, id: string, nonce: int, token: string, status: int)

  /** n is the declared group size; it is sent as given, whatever the length of group. */
  datatype GroupTokenRequest = GroupTokenRequest(n: int, group: seq<Member>)

  datatype GroupTokenResponse = GroupTokenResponse(typ: int, n: int, group: seq<Member>, token: string)

  datatype GroupTokenValidation = GroupTokenValidation(n: int, group: seq<Member>, token: string)

  datatype GroupTokenStatus = GroupTokenStatus(typ: int, n: int, group: seq<Member>, token: string, status: int)
}

=== FILE: transport.dfy ===
/** One request/reply exchange with the authentication server: the bounded
    retry loop around send and receive, and the check that turns a 4-byte
    reply of type 256 into a server error.

    The socket is replaced by a script: the outcome of the j-th round of the
    loop is `AttemptAt(script, j)`. A script that runs out keeps timing out. */
module Transport {
  import opened Wrappers
  import opened Wire
  import opened Messages

  /** What one round (send the payload, wait for a datagram) produced. */
  datatype Attempt =
    | Timeout                      // the receive timed out
    | Fault                        // the socket raised any other OS error
    | Reply(data: seq<byte>)       // a datagram arrived (possibly empty)

  function AttemptAt(script: seq<Attempt>, j: nat): Attempt {
    if j < |script| then script[j] else Timeout
  }

  /** Why an exchange produced no usable reply. The client program exits with
      status 2, 3 and 4 respectively. */
  datatype ExchangeError =
    | ChannelFault
    | NoResponse
    | ServerError(code: int, message: string)

  // ---------------------------------------------------------------------------
  // Server error messages
  // ---------------------------------------------------------------------------

  /** The server's error codes 1..5, in order. */
  const ErrorMessages: seq<string> := [
    "INVALID_MESSAGE_CODE",
    "INCORRECT_MESSAGE_LENGTH",
    "INVALID_PARAMETER",
    "INVALID_SINGLE_TOKEN",
    "ASCII_DECODE_ERROR"
  ]

  const UnknownErrorMessage := "UNKNOWN_ERROR_CODE"

  /** A code names a table entry exactly when it lies in 1..5; every other
      code, zero and negatives included, gets the unknown-code message. */
  function ServerErrorMessage(code: int): (msg: string)
    ensures msg == UnknownErrorMessage <==> code < 1 || code > |ErrorMessages|
    ensures 1 <= code <= |ErrorMessages| ==> msg in ErrorMessages
  {
    if code > |ErrorMessages| || code < 1 then UnknownErrorMessage else ErrorMessages[code - 1]
  }

  /** Distinct known codes have distinct messages, so the message identifies the code. */
  lemma ServerErrorMessageInjective(a: int, b: int)
    requires 1 <= a <= |ErrorMessages| && 1 <= b <= |ErrorMessages|
    requires ServerErrorMessage(a) == ServerErrorMessage(b)
    ensures a == b
  {
  }

  lemma ServerErrorMessages()
    ensures ServerErrorMessage(1) == "INVALID_MESSAGE_CODE"
    ensures ServerErrorMessage(2) == "INCORRECT_MESSAGE_LENGTH"
    ensures ServerErrorMessage(3) == "INVALID_PARAMETER"
    ensures ServerErrorMessage(4) == "INVALID_SINGLE_TOKEN"
    ensures ServerErrorMessage(5) == "ASCII_DECODE_ERROR"
    ensures ServerErrorMessage(0) == UnknownErrorMessage && ServerErrorMessage(6) == UnknownErrorMessage
  {
  }

  // ---------------------------------------------------------------------------
  // Reply classification
  // ---------------------------------------------------------------------------

  /** The error code of a reply that is a server error: exactly 4 bytes whose
      leading signed 16-bit field is 256. */
  function ServerErrorCode(d: seq<byte>): (c: Option<int>)
    ensures c.Some? <==> |d| == 4 && Int16Value(d[..2]) == ServerErrorType
    ensures c.Some? ==> InInt16(c.value) && Int16Bytes(ServerErrorType) + Int16Bytes(c.value) == d
  {
    if |d| == 4 && Int16Value(d[..2]) == ServerErrorType then
      Int16BytesOfValue(d[..2]);
      Int16BytesOfValue(d[2..]);
      assert d[..2] + d[2..] == d;
      Some(Int16Value(d[2..]))
    else
      None
  }

  /** The reply as the client accepts it: empty means no response, a server
      error is reported with its message, anything else is handed on unchanged. */
  function Classify(d: seq<byte>): (r: Result<seq<byte>, ExchangeError>)
    ensures r == Err(NoResponse) <==> |d| == 0
    ensures r.Ok? <==> |d| != 0 && ServerErrorCode(d).None?
    ensures r.Ok? ==> r.value == d
    ensures r.Err? && r.error.ServerError? ==>
      (ServerErrorCode(d) == Some(r.error.code) && r.error.message == ServerErrorMessage(r.error.code))
    ensures r.Err? ==> !r.error.ChannelFault?
  {
    if |d| == 0 then
      Err(NoResponse)
    else
      match ServerErrorCode(d)
      case Some(code) => Err(ServerError(code, ServerErrorMessage(code)))
      case None => Ok(d)
  }

  /** Every 16-bit code the server can send back is reported as that code. */
  lemma ServerErrorReported(code: int)
    requires InInt16(code)
    ensures Classify(Int16Bytes(ServerErrorType) + Int16Bytes(code))
      == Err(ServerError(code, ServerErrorMessage(code)))
  {
    var d := Int16Bytes(ServerErrorType) + Int16Bytes(code);
    assert d[..2] == Int16Bytes(ServerErrorType);
    assert d[2..] == Int16Bytes(code);
    var c := ServerErrorCode(d);
    assert c.Some?;
    assert Int16Bytes(ServerErrorType) + Int16Bytes(c.value) == Int16Bytes(ServerErrorType) + Int16Bytes(code);
    assert Int16Bytes(c.value) == d[2..];
  }

  /** A non-empty reply of any length other than 4 is never mistaken for an error. */
  lemma OtherLengthsPassThrough(d: seq<byte>)
    requires |d| != 0 && |d| != 4
    ensures Classify(d) == Ok(d)
  {
  }

  /** The reply `[1, 0, 0, 3]`: type 256, code 3. */
  lemma InvalidParameterReply()
    ensures Classify([1, 0, 0, 3]) == Err(ServerError(3, "INVALID_PARAMETER"))
  {
    var d: seq<byte> := [1, 0, 0, 3];
    assert d[..2] == [1, 0] && d[2..] == [0, 3];
    assert ServerErrorCode(d) == Some(3);
  }

  // ---------------------------------------------------------------------------
  // The retry loop
  // ---------------------------------------------------------------------------

  /** How the loop ended and how many rounds (sends) it took. */
  datatype LoopEnd =
    | Received(data: seq<byte>, sends: nat)
    | Faulted(sends: nat)
    | Exhausted(sends: nat)

  /** Rounds j, j+1, ... with `left` attempts remaining: a timeout costs one
      attempt, a fault or a datagram ends the loop. */
  function RetryFrom(script: seq<Attempt>, j: nat, left: nat): (e: LoopEnd)
    ensures j <= e.sends <= j + left
    ensures e.Exhausted? ==> e.sends == j + left
    ensures !e.Exhausted? ==> e.sends > j
    ensures e.Faulted? ==> AttemptAt(script, e.sends - 1) == Fault
    ensures e.Received? ==> AttemptAt(script, e.sends - 1) == Reply(e.data)
    ensures forall k :: j <= k < e.sends && (e.Exhausted? || k < e.sends - 1) ==> AttemptAt(script, k) == Timeout
    decreases left
  {
    if left == 0 then
      Exhausted(j)
    else
      match AttemptAt(script, j)
      case Timeout => RetryFrom(script, j + 1, left - 1)
      case Fault => Faulted(j + 1)
      case Reply(d) => Received(d, j + 1)
  }

  /** The number of sends sendPayload makes unless the caller gives another
      count; every operation of the client uses it. */
  const DefaultAttempts: nat := 5

  /** The receive buffer of sendPayload unless the caller gives another size. */
  const DefaultBufSize := 4096

  /** `recv(bufSize)` on a datagram socket: the first bufSize bytes of the
      datagram; the rest of it is discarded. */
  function Receive(datagram: seq<byte>, bufSize: nat): (got: seq<byte>)
    ensures |got| <= bufSize && |got| <= |datagram| && got == datagram[..|got|]
    ensures |datagram| <= bufSize ==> got == datagram
    ensures |datagram| > bufSize ==> |got| == bufSize
  {
    if |datagram| <= bufSize then datagram else datagram[..bufSize]
  }

  function Loop(script: seq<Attempt>, attempts: nat): (e: LoopEnd)
    ensures e.sends <= attempts
  {
    RetryFrom(script, 0, attempts)
  }

  /** The result of sendPayload with the given number of attempts and receive buffer. */
  function Exchange(script: seq<Attempt>, attempts: nat, bufSize: nat): (r: Result<seq<byte>, ExchangeError>)
    ensures r == Err(ChannelFault) <==> Loop(script, attempts).Faulted?
    ensures r.Ok? ==> (&& Loop(script, attempts).Received?
                       && r.value == Receive(Loop(script, attempts).data, bufSize)
                       && 0 < |r.value| <= bufSize)
    ensures Loop(script, attempts).Exhausted? ==> r == Err(NoResponse)
    ensures Loop(script, attempts).Received? ==> r == Classify(Receive(Loop(script, attempts).data, bufSize))
  {
    match Loop(script, attempts)
    case Faulted(_) => Err(ChannelFault)
    case Exhausted(_) => Err(NoResponse)
    case Received(d, _) => Classify(Receive(d, bufSize))
  }

  /** sendPayload: the payload is sent once per round until a datagram arrives,
      a fault occurs or the attempts are used up. `sent` lists what went out. */
  method SendPayload(payload: seq<byte>, script: seq<Attempt>, attempts: nat, bufSize: nat)
    returns (r: Result<seq<byte>, ExchangeError>, sent: seq<seq<byte>>)
    ensures r == Exchange(script, attempts, bufSize)
    ensures |sent| == Loop(script, attempts).sends <= attempts
    ensures forall k :: 0 <= k < |sent| ==> sent[k] == payload
    ensures forall k :: 0 <= k < |sent| - 1 ==> AttemptAt(script, k) == Timeout
  {
    var left := attempts;
    sent := [];
    while left > 0
      invariant |sent| + left == attempts
      invariant forall k :: 0 <= k < |sent| ==> sent[k] == payload
      invariant forall k :: 0 <= k < |sent| ==> AttemptAt(script, k) == Timeout
      invariant RetryFrom(script, |sent|, left) == Loop(script, attempts)
      decreases left
    {
      var j := |sent|;
      sent := sent + [payload];
      match AttemptAt(script, j)
      case Timeout =>
        left := left - 1;
      case Fault =>
        return Err(ChannelFault), sent;
      case Reply(d) =>
        return Classify(Receive(d, bufSize)), sent;
    }
    r := Err(NoResponse);
  }

  // ---------------------------------------------------------------------------
  // Properties of the loop
  // ---------------------------------------------------------------------------

  /** With no attempts nothing is sent and there is no response. */
  lemma NoAttempts(script: seq<Attempt>, bufSize: nat)
    ensures Loop(script, 0) == Exhausted(0) && Exchange(script, 0, bufSize) == Err(NoResponse)
  {
  }

  /** If every round within the budget times out, every attempt is spent. */
  lemma {:induction false} AllTimeouts(script: seq<Attempt>, j: nat, left: nat)
    requires forall k :: j <= k < j + left ==> AttemptAt(script, k) == Timeout
    ensures RetryFrom(script, j, left) == Exhausted(j + left)
    decreases left
  {
    if left > 0 {
      AllTimeouts(script, j + 1, left - 1);
    }
  }

  /** The first round within the budget that does not time out decides the exchange. */
  lemma {:induction false} FirstAnswerDecides(script: seq<Attempt>, j: nat, left: nat, k: nat)
    requires j <= k < j + left && AttemptAt(script, k) != Timeout
    requires forall i :: j <= i < k ==> AttemptAt(script, i) == Timeout
    ensures AttemptAt(script, k) == Fault ==> RetryFrom(script, j, left) == Faulted(k + 1)
    ensures AttemptAt(script, k).Reply? ==> RetryFrom(script, j, left) == Received(AttemptAt(script, k).data, k + 1)
    decreases left
  {
    if k > j {
      FirstAnswerDecides(script, j + 1, left - 1, k);
    }
  }

  /** A timeout-only script gives no response after sending `attempts` times. */
  lemma SilentServer(script: seq<Attempt>, attempts: nat, bufSize: nat)
    requires forall k :: 0 <= k < attempts ==> AttemptAt(script, k) == Timeout
    ensures Loop(script, attempts) == Exhausted(attempts)
    ensures Exchange(script, attempts, bufSize) == Err(NoResponse)
  {
    AllTimeouts(script, 0, attempts);
  }

  /** Once the loop has ended on a datagram or a fault, a larger attempt budget
      changes nothing. */
  lemma {:induction false} MoreAttemptsAfterAnswer(script: seq<Attempt>, j: nat, left: nat, more: nat)
    requires !RetryFrom(script, j, left).Exhausted?
    requires left <= more
    ensures RetryFrom(script, j, more) == RetryFrom(script, j, left)
    decreases left
  {
    if AttemptAt(script, j) == Timeout {
      MoreAttemptsAfterAnswer(script, j + 1, left - 1, more - 1);
    }
  }
}

=== FILE: wire.dfy ===
/** Field-level building blocks of the token protocol's fixed layouts: octets,
    big-endian two's-complement integers (struct's `!b`, `!h`, `!i`), ASCII text,
    the fixed-width `Ns` byte field, and the two string operations the client
    applies to ids (`str.ljust` before packing, `str.strip` after unpacking). */
module Wire {
  import opened Wrappers

  /** An octet on the wire. */
  type byte = x: int | 0 <= x < 256

  /** Why a pack or an unpack fails: a character or byte outside ASCII
      (Python's UnicodeEncodeError / UnicodeDecodeError), an integer that does
      not fit its field, or a buffer whose size differs from the format's
      (both struct.error). */
  datatype CodecError =
    | NonAsciiText
    | IntegerOutOfRange
    | WrongLength(expected: nat, actual: nat)

  // ---------------------------------------------------------------------------
  // Unsigned big-endian integers
  // ---------------------------------------------------------------------------

  function Pow256(k: nat): (p: nat)
    ensures p >= 1
  {
    if k == 0 then 1 else 256 * Pow256(k - 1)
  }

  /** Half the range of a k-byte field: the smallest value a signed field cannot hold. */
  function Half(k: nat): int
    requires k > 0
  {
    128 * Pow256(k - 1)
  }

  lemma Pow256Values()
    ensures Pow256(1) == 0x100 && Half(1) == 0x80
    ensures Pow256(2) == 0x1_0000 && Half(2) == 0x8000
    ensures Pow256(4) == 0x1_0000_0000 && Half(4) == 0x8000_0000
  {
  }

  /** The k-byte big-endian representation of u, most significant byte first. */
  function BigEndian(u: nat, k: nat): (bs: seq<byte>)
    requires u < Pow256(k)
    ensures |bs| == k
  {
    if k == 0 then [] else BigEndian(u / 256, k - 1) + [u % 256]
  }

  /** The number a big-endian byte sequence denotes. */
  function Unsigned(bs: seq<byte>): (u: nat)
    ensures u < Pow256(|bs|)
  {
    if |bs| == 0 then 0 else Unsigned(bs[..|bs| - 1]) * 256 + bs[|bs| - 1]
  }

  lemma {:induction false} UnsignedOfBigEndian(u: nat, k: nat)
    requires u < Pow256(k)
    ensures Unsigned(BigEndian(u, k)) == u
  {
    if k > 0 {
      var bs := BigEndian(u, k);
      assert bs[..k - 1] == BigEndian(u / 256, k - 1);
      UnsignedOfBigEndian(u / 256, k - 1);
    }
  }

  lemma {:induction false} BigEndianOfUnsigned(bs: seq<byte>)
    ensures BigEndian(Unsigned(bs), |bs|) == bs
  {
    if |bs| > 0 {
      var init := bs[..|bs| - 1];
      BigEndianOfUnsigned(init);
      var u := Unsigned(bs);
      assert u / 256 == Unsigned(init);
      assert u % 256 == bs[|bs| - 1];
      assert bs == init + [bs[|bs| - 1]];
    }
  }

  // ---------------------------------------------------------------------------
  // Signed (two's-complement) big-endian integers
  // ---------------------------------------------------------------------------

  predicate InSigned(v: int, k: nat)
    requires k > 0
  {
    -Half(k) <= v < Half(k)
  }

  /** struct's packing of a signed k-byte integer in network byte order. */
  function SignedBytes(v: int, k: nat): (bs: seq<byte>)
    requires k > 0 && InSigned(v, k)
    ensures |bs| == k
  {
    BigEndian(if v < 0 then v + Pow256(k) else v, k)
  }

  /** struct's unpacking of a signed k-byte integer in network byte order. */
  function SignedValue(bs: seq<byte>): (v: int)
    requires |bs| > 0
    ensures InSigned(v, |bs|)
  {
    var u := Unsigned(bs);
    if u >= Half(|bs|) then u - Pow256(|bs|) else u
  }

  lemma SignedRoundTrip(v: int, k: nat)
    requires k > 0 && InSigned(v, k)
    ensures SignedValue(SignedBytes(v, k)) == v
  {
    UnsignedOfBigEndian(if v < 0 then v + Pow256(k) else v, k);
  }

  lemma SignedBytesOfValue(bs: seq<byte>)
    requires |bs| > 0
    ensures SignedBytes(SignedValue(bs), |bs|) == bs
  {
    BigEndianOfUnsigned(bs);
  }

  predicate InInt8(v: int) { -0x80 <= v < 0x80 }
  predicate InInt16(v: int) { -0x8000 <= v < 0x8000 }
  predicate InInt32(v: int) { -0x8000_0000 <= v < 0x8000_0000 }

  /** `struct.pack("!b", v)`, `"!h"` and `"!i"`: the value in one, two or four bytes. */
  function Int8Bytes(v: int): (bs: seq<byte>)
    requires InInt8(v)
    ensures |bs| == 1 && Int8Value(bs) == v
  {
    Pow256Values();
    SignedRoundTrip(v, 1);
    SignedBytes(v, 1)
  }

  function Int16Bytes(v: int): (bs: seq<byte>)
    requires InInt16(v)
    ensures |bs| == 2 && Int16Value(bs) == v
  {
    Pow256Values();
    SignedRoundTrip(v, 2);
    SignedBytes(v, 2)
  }

  function Int32Bytes(v: int): (bs: seq<byte>)
    requires InInt32(v)
    ensures |bs| == 4 && Int32Value(bs) == v
  {
    Pow256Values();
    SignedRoundTrip(v, 4);
    SignedBytes(v, 4)
  }

  /** `struct.unpack("!b", bs)`, `"!h"` and `"!i"`: the bytes read most
      significant first, negative exactly when the top bit of the first byte is set. */
  function Int8Value(bs: seq<byte>): (v: int)
    requires |bs| == 1
    ensures InInt8(v)
    ensures v == if bs[0] as int < 0x80 then bs[0] as int else bs[0] as int - 0x100
  {
    Pow256Values();
    assert bs[..0] == [];
    SignedValue(bs)
  }

  function Int16Value(bs: seq<byte>): (v: int)
    requires |bs| == 2
    ensures InInt16(v)
    ensures v == (if bs[0] as int < 0x80 then 0 else -0x1_0000) + bs[0] as int * 0x100 + bs[1] as int
  {
    Pow256Values();
    UnsignedOfTwo(bs);
    SignedValue(bs)
  }

  function Int32Value(bs: seq<byte>): (v: int)
    requires |bs| == 4
    ensures InInt32(v)
    ensures v == (if bs[0] as int < 0x80 then 0 else -0x1_0000_0000)
      + bs[0] as int * 0x100_0000 + bs[1] as int * 0x1_0000 + bs[2] as int * 0x100 + bs[3] as int
  {
    Pow256Values();
    UnsignedOfFour(bs);
    SignedValue(bs)
  }

  lemma UnsignedOfTwo(bs: seq<byte>)
    requires |bs| == 2
    ensures Unsigned(bs) == bs[0] as int * 0x100 + bs[1] as int
  {
    assert bs[..1][..0] == [];
  }

  lemma UnsignedOfFour(bs: seq<byte>)
    requires |bs| == 4
    ensures Unsigned(bs) == bs[0] as int * 0x100_0000 + bs[1] as int * 0x1_0000 + bs[2] as int * 0x100 + bs[3] as int
  {
    UnsignedOfTwo(bs[..2]);
    assert bs[..3][..2] == bs[..2];
    assert Unsigned(bs[..3]) == Unsigned(bs[..2]) * 0x100 + bs[2] as int;
  }

  /** Every single byte is the `b` packing of the value it unpacks to. */
  lemma Int8BytesOfValue(bs: seq<byte>)
    requires |bs| == 1
    ensures Int8Bytes(Int8Value(bs)) == bs
  {
    Pow256Values();
    SignedBytesOfValue(bs);
  }

  /** Every four bytes are the `i` packing of the value they unpack to. */
  lemma Int32BytesOfValue(bs: seq<byte>)
    requires |bs| == 4
    ensures Int32Bytes(Int32Value(bs)) == bs
  {
    Pow256Values();
    SignedBytesOfValue(bs);
  }

  /** Every byte pair is the packing of exactly the value it unpacks to. */
  lemma Int16BytesOfValue(bs: seq<byte>)
    requires |bs| == 2
    ensures Int16Bytes(Int16Value(bs)) == bs
  {
    Pow256Values();
    SignedBytesOfValue(bs);
  }

  // ---------------------------------------------------------------------------
  // ASCII text
  // ---------------------------------------------------------------------------

  predicate IsAsciiText(s: string) {
    forall i :: 0 <= i < |s| ==> s[i] as int < 0x80
  }

  predicate IsAsciiBytes(bs: seq<byte>) {
    forall i :: 0 <= i < |bs| ==> bs[i] < 0x80
  }

  /** `bytes(s, encoding="ascii")`: one byte per character; fails on any character above U+007F. */
  function EncodeAscii(s: string): (r: Option<seq<byte>>)
    ensures r.Some? <==> IsAsciiText(s)
    ensures r.Some? ==> |r.value| == |s| && IsAsciiBytes(r.value)
    ensures r.Some? ==> forall i :: 0 <= i < |s| ==> r.value[i] == s[i] as int
  {
    if IsAsciiText(s) then Some(seq(|s|, i requires 0 <= i < |s| => s[i] as int)) else None
  }

  /** `bs.decode("ascii")`: one character per byte; fails on any byte 0x80 or above. */
  function DecodeAscii(bs: seq<byte>): (r: Option<string>)
    ensures r.Some? <==> IsAsciiBytes(bs)
    ensures r.Some? ==> |r.value| == |bs| && IsAsciiText(r.value)
    ensures r.Some? ==> forall i :: 0 <= i < |bs| ==> r.value[i] as int == bs[i]
  {
    if IsAsciiBytes(bs) then Some(seq(|bs|, i requires 0 <= i < |bs| => bs[i] as char)) else None
  }

  lemma AsciiRoundTrip(s: string)
    requires IsAsciiText(s)
    ensures DecodeAscii(EncodeAscii(s).value) == Some(s)
  {
    var bs := EncodeAscii(s).value;
    assert DecodeAscii(bs).value == s;
  }

  lemma AsciiBytesRoundTrip(bs: seq<byte>)
    requires IsAsciiBytes(bs)
    ensures EncodeAscii(DecodeAscii(bs).value) == Some(bs)
  {
    var s := DecodeAscii(bs).value;
    assert EncodeAscii(s).value == bs;
  }

  /** The four parts of a concatenation, recovered by slicing. */
  lemma SlicesOfConcat<T>(a: seq<T>, b: seq<T>, c: seq<T>, d: seq<T>)
    ensures (a + b + c + d)[..|a|] == a
    ensures (a + b + c + d)[|a|..|a| + |b|] == b
    ensures (a + b + c + d)[|a| + |b|..|a| + |b| + |c|] == c
    ensures (a + b + c + d)[|a| + |b| + |c|..] == d
  {
    var s := a + b + c + d;
    assert s[..|a|] == a;
    assert s[|a|..|a| + |b|] == b;
    assert s[|a| + |b|..|a| + |b| + |c|] == c;
    assert s[|a| + |b| + |c|..] == d;
  }

  /** The two 2-byte fields of a 4-byte header at the front of s. */
  lemma HeaderFields(s: seq<byte>, a: seq<byte>, b: seq<byte>)
    requires |a| == 2 && |b| == 2 && |s| >= 4 && s[..4] == a + b
    ensures s[..2] == a && s[2..4] == b
  {
    assert s[..2] == s[..4][..2];
    assert s[2..4] == s[..4][2..4];
  }

  // ---------------------------------------------------------------------------
  // Fixed-width fields
  // ---------------------------------------------------------------------------

  function Zeros(k: nat): (z: seq<byte>)
    ensures |z| == k && forall i :: 0 <= i < k ==> z[i] == 0
  {
    seq(k, _ => 0)
  }

  /** struct's `Ns` conversion: the data cut to w bytes, or NUL-padded up to w bytes. */
  function FixedWidth(data: seq<byte>, w: nat): (f: seq<byte>)
    ensures |f| == w
    ensures forall i :: 0 <= i < w ==> f[i] == if i < |data| then data[i] else 0
  {
    if |data| >= w then data[..w] else data + Zeros(w - |data|)
  }

  /** The text a w-byte field holding s reads back as: s cut to w characters,
      or s followed by NUL characters up to w. */
  function PadText(s: string, w: nat): (r: string)
    ensures |r| == w
  {
    if |s| >= w then s[..w] else s + seq(w - |s|, _ => '\0')
  }

  /** `bytes(s, encoding="ascii")` placed in a struct `Ns` field of width w. */
  function AsciiField(s: string, w: nat): (r: Result<seq<byte>, CodecError>)
    ensures r.Ok? <==> IsAsciiText(s)
    ensures r.Err? ==> r.error == NonAsciiText
    ensures r.Ok? ==> |r.value| == w && DecodeAscii(r.value) == Some(PadText(s, w))
  {
    match EncodeAscii(s)
    case None => Err(NonAsciiText)
    case Some(bs) =>
      var field := FixedWidth(bs, w);
      assert IsAsciiBytes(field);
      assert DecodeAscii(field).value == PadText(s, w);
      Ok(field)
  }

  /** A full-width field of ASCII bytes is the field of the text it decodes to. */
  lemma FieldOfAsciiBytes(bs: seq<byte>, w: nat)
    requires IsAsciiBytes(bs) && |bs| == w
    ensures AsciiField(DecodeAscii(bs).value, w) == Ok(bs)
  {
    AsciiBytesRoundTrip(bs);
    assert FixedWidth(bs, w) == bs;
  }

  // ---------------------------------------------------------------------------
  // Padding and trimming of text
  // ---------------------------------------------------------------------------

  /** k space characters. */
  function Spaces(k: nat): (r: string)
    ensures |r| == k && AllSpace(r) && IsAsciiText(r)
  {
    seq(k, _ => ' ')
  }

  /** `s.ljust(w)`: s followed by spaces up to width w; a longer s is left as it is. */
  function LeftJustify(s: string, w: nat): (r: string)
    ensures |r| == if |s| >= w then |s| else w
    ensures r == s + Spaces(|r| - |s|)
    ensures IsAsciiText(r) <==> IsAsciiText(s)
  {
    if |s| >= w then
      assert s == s + Spaces(0);
      s
    else
      var r := s + Spaces(w - |s|);
      assert forall i :: 0 <= i < |s| ==> r[i] == s[i];
      r
  }

  /** Python's `str.isspace()` on the ASCII range: HT, LF, VT, FF, CR, the four
      separators FS, GS, RS, US, and space. NUL is not whitespace. */
  predicate IsSpace(c: char) {
    9 <= c as int <= 13 || 28 <= c as int <= 32
  }

  predicate AllSpace(s: string) {
    forall i :: 0 <= i < |s| ==> IsSpace(s[i])
  }

  /** Neither starts nor ends with whitespace: what `str.strip()` returns. */
  predicate Trimmed(s: string) {
    |s| == 0 || (!IsSpace(s[0]) && !IsSpace(s[|s| - 1]))
  }

  /** Length of the whitespace run that starts s. */
  function LeadingSpace(s: string): (k: nat)
    ensures k <= |s| && AllSpace(s[..k])
    ensures k < |s| ==> !IsSpace(s[k])
  {
    if |s| > 0 && IsSpace(s[0]) then 1 + LeadingSpace(s[1..]) else 0
  }

  /** Length of the whitespace run that ends s. */
  function TrailingSpace(s: string): (k: nat)
    ensures k <= |s| && AllSpace(s[|s| - k..])
    ensures k < |s| ==> !IsSpace(s[|s| - 1 - k])
  {
    if |s| > 0 && IsSpace(s[|s| - 1]) then 1 + TrailingSpace(s[..|s| - 1]) else 0
  }

  /** `s.strip()`: s without its leading and trailing whitespace. */
  function Strip(s: string): (r: string)
    ensures Trimmed(r)
    ensures exists i :: 0 <= i <= |s| - |r| && AllSpace(s[..i]) && s[i..i + |r|] == r && AllSpace(s[i + |r|..])
  {
    var a := LeadingSpace(s);
    var t := s[a..];
    var b := TrailingSpace(t);
    var r := t[..|t| - b];
    assert s[a..a + |r|] == r;
    assert s[a + |r|..] == t[|t| - b..];
    r
  }

  /** Whitespace around a trimmed core is exactly what `strip` removes. */
  lemma {:induction false} StripUnique(p: string, m: string, q: string)
    requires AllSpace(p) && Trimmed(m) && AllSpace(q)
    ensures Strip(p + m + q) == m
  {
    var s := p + m + q;
    var a := LeadingSpace(s);
    if |m| == 0 {
      assert AllSpace(s);
      assert a == |s|;
    } else {
      assert s[|p|] == m[0];
      assert a == |p|;
      var t := s[a..];
      assert t == m + q;
      var b := TrailingSpace(t);
      assert t[|m| - 1] == m[|m| - 1];
      assert b == |q|;
      assert t[..|t| - b] == m;
    }
  }

  /** Stripping text that is already trimmed changes nothing. */
  lemma StripTrimmed(s: string)
    requires Trimmed(s)
    ensures Strip(s) == s
  {
    StripUnique("", s, "");
    assert "" + s + "" == s;
  }

  /** Strip keeps only characters of its argument, so ASCII stays ASCII and nothing grows. */
  lemma {:induction false} StripAscii(s: string)
    requires IsAsciiText(s)
    ensures IsAsciiText(Strip(s)) && |Strip(s)| <= |s|
  {
    var r := Strip(s);
    var i :| 0 <= i <= |s| - |r| && AllSpace(s[..i]) && s[i..i + |r|] == r && AllSpace(s[i + |r|..]);
    assert forall k :: 0 <= k < |r| ==> r[k] == s[i + k];
  }
}

=== FILE: wrappers.dfy ===
/** Optional values and results-or-errors, as used by every other module here. */
module Wrappers {

  datatype Option<+T> = None | Some(value: T) {

    /** Turns a missing value into the given error. */
    function ToResult<E>(error: E): (r: Result<T, E>)
      ensures r.Ok? <==> Some?
      ensures r.Ok? ==> r.value == value
      ensures r.Err? ==> r.error == error
    {
      match this
      case Some(v) => Ok(v)
      case None => Err(error)
    }
  }

  datatype Result<+T, +E> = Ok(value: T) | Err(error: E) {

    predicate IsFailure() {
      Err?
    }

    function PropagateFailure<U>(): Result<U, E>
      requires Err?
    {
      Err(error)
    }

    function Extract(): T
      requires Ok?
    {
      value
    }
  }
}
